=== FILE: README.md ===
# sfmcwrapper in Dafny

A model of the decision and transformation rules in `sfmcwrapper`. This is a
Python wrapper around the Salesforce Marketing Cloud SOAP and REST APIs, plus
a few command-line tools built on it. The network is replaced by an oracle: a
sequence of server replies is consumed in order, and every request sent is
appended to a log. The clock is an integer. What is left is pure functions
over immutable data, and the model proves what those functions do.

The modules follow the source files:

| module | file | models |
|---|---|---|
| `Base`, `Values`, `Text`, `Net` | — | Python values (None, bool, int, str, list, dict) and the built-ins the code applies to them; `join`/`split`/`re.sub`/`lstrip`/`lower`; `str(int)`/`int(str)`; HTTP requests and replies, `raise_for_status` |
| `TokenManager` | ET_Client.py | the bearer-token cache and its expiry rule |
| `SoapClient` | ET_Client.py | `create`, and `retrieve` with its continuation drain |
| `RestClient` | ET_Client.py | `get`: query string, URL and pagination. Also `post`, `patch`, `put`, `delete_rest` and `copy` |
| `Migration` | copy.py | `fetch_soap_objects`, `migrate_soap_objects`, `fetch_rest_objects`, `migrate_rest_objects` |
| `EtFetch` | et_fetch.py | `fetching_rest` (parameter dict, `{id}` substitution, verb dispatch, error swallowing) and `fetching_soap` |
| `Fetch` | fetch.py | the `fetching_rest` variant without an object id |
| `EtServer` | et_server.py | `MultiFileHandler.do_GET`'s path rewrite and allowlist |

Conventions:

- A Python exception is an `Err` of `Base.Error`, such as `KeyError("name")`,
  `AttributeError("josn")` or `Raised(message)`.
- `Unmodelled` marks the outcomes the model does not determine. One example
  is the text of `str()` applied to a non-empty dict, because dict order is
  not tracked.
- Each operation returns a `Step`: its result together with the channel as
  the call left it. The channel holds the replies not yet consumed and the
  requests sent so far.
- The catalog lookup `find_object_by_name` is not part of this model. The
  fetchers take what it found as an `Option<Record>`.

## Model

| member | source | states |
|---|---|---|
| TokenManager.Refresh | ET_Client.py:27-43 | One POST of the client-credentials payload to `<auth>/v2/token`. It succeeds exactly when the reply is accepted, is JSON and carries `access_token` and a numeric or absent `expires_in`. The stored token is `access_token`. The expiry is `now + expires_in - 60`, with `expires_in` 1200 when absent. A failed refresh keeps the old expiry. |
| TokenManager.Init | ET_Client.py:16-25 | Construction refreshes once from expiry 0. It succeeds exactly when the reply is usable: accepted, a JSON object with `access_token`, and a numeric or absent `expires_in`. It then returns `access_token`, stores that same token, and sets the expiry to now + `expires_in` − 60, with 1200 as the default lifetime. If the refresh fails, expiry stays 0. |
| TokenManager.GetToken | ET_Client.py:45-48 | The server is contacted exactly when `now >= expiry`. Before expiry, the cached token is returned and the store is unchanged. From expiry on, one token request is sent. The call succeeds exactly when the reply is usable, and then returns and stores the new `access_token` with expiry `now + expires_in - 60` (1200 when absent). A failed refresh keeps the old expiry. |
| TokenManager.FreshTokenReused | ET_Client.py:41-48 | A token just obtained is served from the cache, without an exchange, at every later time before its expiry. |
| TokenManager.ShortLifetimeRefreshesAgain | ET_Client.py:41-48 | A granted lifetime of 60 s or less is stale on arrival, so the next `get_token` refreshes again. |
| TokenManager.AtMostOneRefreshPerInstant | ET_Client.py:41-48 | Take two calls at the same instant, where the first refreshed to a lifetime above 60 s. The second call changes nothing and returns the same token. |
| Net.Call | ET_Client.py:205-206 | A request is always logged. It succeeds exactly when a reply is there and its status is below 400 or at least 600. |
| SoapClient.Invoke | ET_Client.py:138 | One SOAP operation: logged, answered by the next reply. A fault raises. |
| SoapClient.Create | ET_Client.py:122-126 | `create` sends exactly one Create call for the given type and properties. It succeeds exactly when the next reply is a response, not a fault, and then returns that response's body and consumes that one reply. |
| SoapClient.Retrieve | ET_Client.py:128-160 | Without `morerow`: one Retrieve of the built request, and the first response is returned verbatim. With `morerow`: the result always has exactly `Results` (a list), `OverallStatus` 'OK', `RequestID` None and `MoreDataAvailable` False. |
| SoapClient.Drain | ET_Client.py:145-160 | Every completed drain returns the complete-response shape. |
| SoapClient.DrainSound | ET_Client.py:145-153 | A completed drain consumed a chain of listable pages, each fetched because its predecessor announced more data and gave a `RequestID`. The result is their `Results` concatenated in order, with None read as empty. |
| SoapClient.DrainComplete | ET_Client.py:145-153 | Conversely, when the server holds such a chain, the drain consumes exactly it and returns exactly its results. |
| SoapClient.RetrieveDrainsChain | ET_Client.py:143-160 | A drained `retrieve` succeeds if and only if the replies begin with a page chain. It then consumes exactly those k pages with k calls, and returns their results in order, marked complete. |
| SoapClient.TwoPageDrain | ET_Client.py:145-160 | A first page with 'MoreDataAvailable' and a RequestID, then an 'OK' page, give both pages' results in order. The second call carries the RequestID as `ContinueRequest`. |
| SoapClient.MissingRequestIdStopsDrain | ET_Client.py:145-148 | 'MoreDataAvailable' without a `RequestID` ends the drain without error. Only the first page's results are kept, and no further call is made. |
| RestClient.ParamAfterSet | ET_Client.py:217-218 | After `params['$page'] = v`, looking up `$page` gives v. |
| RestClient.ParamOtherAfterSet | ET_Client.py:217-218 | Setting `$page` changes no other key. |
| RestClient.RenderAllPairs | ET_Client.py:199-201 | The query renders exactly when every value does: a list only of strings is comma-joined, anything else goes through `str()`. Each pair keeps its key and its value's text, in insertion order. |
| RestClient.QueryRoundTrip | ET_Client.py:199-201 | Suppose no key or rendered value contains `&` or `=`. Then splitting the query on `&` and `=` gives back every key with its rendered value, in order. |
| Text.LStripSlash | ET_Client.py:203 | `lstrip('/')` removes exactly the leading run of slashes. |
| Text.IntStringRoundTrip | ET_Client.py:217-218 | `int(str(n)) == n`, so the page counter read back is the number written. |
| RestClient.GetLoop | ET_Client.py:198-219 | The loop only appends to the request log, keeping the requests sent before it. What each turn does is stated by `RestClient.LoopAgain`, `RestClient.LoopStops` and `RestClient.SinglePage`. |
| RestClient.SinglePage | ET_Client.py:198-215 | Without `morerow`, a loop with a URL sends exactly one GET of it. On success it consumed one reply, and returns the body raw when it has no `items`, otherwise the page's items. |
| RestClient.Get | ET_Client.py:188-223 | A URL that cannot be built fails before any request. Without `morerow`, `get` sends exactly one GET of `<base>/<path without leading slashes>?<query>`. It returns the body as it came when that has no `items`, and just the page's items otherwise. |
| RestClient.LoopAgain | ET_Client.py:203-218 | When the URL builds, the first reply is a page that asks for more and `$page` reads as a number, one turn sends the GET of that URL, adds the page's items and goes on with `$page` one higher. |
| RestClient.LoopStops | ET_Client.py:203-215 | Otherwise, with a URL, the loop sends exactly one GET. It succeeds exactly when the reply is a readable page that asks for no more, and returns that body raw when it has no `items`, else the items so far plus the page's. |
| RestClient.NextPage | ET_Client.py:217-218 | Setting `$page` to `str(int($page) + 1)` on the parameters of page i gives those of page i + 1, whose `$page` reads as the start page plus i + 1. |
| RestClient.LoopSound | ET_Client.py:198-219 | A completed run, for any way of building URLs, read its replies turn by turn: each turn read one page and sent one request, every turn before the last asked for more, and the last page decided the result. |
| RestClient.LoopComplete | ET_Client.py:198-219 | Conversely, a page chain on the server, when every page's parameters build a URL, is read turn by turn to its end. |
| RestClient.RanRun | ET_Client.py:209-223 | A run read turn by turn consumed exactly its k replies as a page chain, sent k requests after the old log, and returns the last body raw when it has no `items`, otherwise every page's items in order. |
| RestClient.LoopRequests | ET_Client.py:203-218 | A successful run's requests are one GET per page: the first with the given parameters, each next one with `$page` incremented. |
| RestClient.RequestedPages | ET_Client.py:217-218 | Those requests, counted from page i, carry `$page` equal to the start page plus the request's index. |
| RestClient.GetReadsChainSound | ET_Client.py:196-223 | A successful `get` read a page chain of the replies it consumed, and its URL and, for two pages or more, its `$page` were valid. |
| RestClient.GetReadsChainComplete | ET_Client.py:196-223 | A page chain of k replies is read in full by `get`: the result is the chain's outcome, k replies and k requests are consumed, and the requests ask for page after page. |
| RestClient.GetReadsChain | ET_Client.py:196-223 | `get` succeeds if and only if the replies begin with a page chain: every page but the last has `items`, `count` and at least one item, and the last stops the loop. It consumes exactly the chain with one request each. Each request has `$page` set to the start page plus its index. The result is the last body when that has no `items`, otherwise every page's items in order. |
| RestClient.GetOnePage | ET_Client.py:196-223 | Without `morerow`, a buildable URL and a readable first reply make `get` succeed with that page's items, or with the body as it came when the page is not an item list. |
| RestClient.RawPageDiscardsItems | ET_Client.py:209-212 | A later page without `items` replaces everything collected before it. |
| RestClient.GetPostsNothing | ET_Client.py:188-223 | Every request `get` sends is a GET, so it posts nothing. |
| RestClient.PostAsWritten | ET_Client.py:225-238 | `post` as written always raises. The POST is sent first, and when the server accepted it the error is AttributeError `josn`. |
| RestClient.PatchAsWritten | ET_Client.py:240-254 | The same for `patch`. |
| RestClient.Post | ET_Client.py:225-238 | `post` as intended: one POST to base + path with the JSON payload. It succeeds exactly when the reply is accepted and JSON, and then returns the decoded body. |
| RestClient.Patch | ET_Client.py:240-254 | `patch` as intended, likewise with PATCH. |
| RestClient.Put | ET_Client.py:256-264 | `put`: one PUT. It succeeds exactly when the reply is accepted and JSON, and returns the decoded body. |
| RestClient.DeleteRest | ET_Client.py:266-275 | `delete_rest`: one DELETE without a body. It succeeds exactly when the reply is accepted, and returns its status code. |
| RestClient.CopyPayload | ET_Client.py:291-298 | The copy of an asset exists exactly when the asset is a dict with `name` and `assetType`. Its keys are exactly name, assetType, category, customerKey, views and content. Name and type are copied, the category is the destination, and customerKey is None. |
| RestClient.CopyAsWrittenPostsNothing | ET_Client.py:280-288 | `copy` as written sends no POST, whatever the server answers. |
| RestClient.CopyPostsEveryAsset | ET_Client.py:277-300 | The corrected `copy`, posting through the corrected `post`, lists the source folder with one `get` run, then posts one copy per listed asset, in order, to `/asset/v1/content/assets`. |
| RestClient.PostCopiesPostsEach | ET_Client.py:290-300 | With `post` corrected, posting a list of assets sends exactly one POST per asset, in order, each carrying that asset's copy. |
| Migration.FetchSoapObjects | copy.py:51-63 | Exactly one unpaged Retrieve, with no filter. With a folder, a successful fetch is a list. |
| Migration.FetchSoapKeepsFolder | copy.py:53-60 | An empty response, or one with `Status` False, gives `[]`. Without a folder, `Results` is returned as it came. With a folder, the result is the comprehension over `Results` keeping the records whose `str(CategoryID)` equals `str(folder_id)`, in order and with repeats. |
| Migration.KeepFolderExactly | copy.py:59-60 | The folder filter succeeds exactly when every record has a folder text. It then equals the list comprehension, and a record is kept exactly when it is listed and names the folder. |
| Migration.FilteredCounts | copy.py:60 | The comprehension keeps every copy of a record that names the folder and no copy of any other. |
| Migration.MissingCategoryMatchesNone | copy.py:60 | A record without `CategoryID` reads as folder "None", and is kept when the folder asked for is the text "None". |
| Migration.Rewrite | copy.py:69-71 | The created record has the source's keys minus `ID`. `CategoryID`, if present, becomes the target folder. Every other value is unchanged. |
| Migration.MigrateSoap | copy.py:66-77 | The migration only appends to the SOAP call log. |
| Migration.MigrateSoapCreatesEach | copy.py:68-72 | A completed SOAP migration sent exactly one Create per source object, in order, each carrying the rewritten record. Nothing is compared against the target folder. |
| Migration.FetchRestObjects | copy.py:79-107 | A missing `endpoint` is a KeyError, and an empty one raises 'fields or endpoint not declared'. Both happen before any request. When the entry declares both, the folder has a text and the URL builds, exactly one GET is sent, of the endpoint with the fetch query; otherwise the fetch fails with nothing sent. On success the result is exactly the first page's items. When the request goes out and the first reply is readable, the fetch returns that page's items, or AttributeError `OverallStatus` when the body is not an item list. |
| Migration.FetchParamsFirstPage | copy.py:85-94 | The query asks for `$fields`, page 1 of 50, and `$filter` `category.id=<folder>`. `$order_by` is present exactly when the entry's `order_by` is truthy, with that value. No other key is set. |
| Migration.NameSetIsNames | copy.py:112-113 | The name set is exactly the names of the items that have a `name`, as a Python set holds them: `True` is the element `1` and `False` is `0`. |
| Values.SetKeySame | copy.py:112-113 | Two names are one set element exactly when they are equal, or one is a bool and the other the int it equals. |
| Migration.BoolNameMatchesInt | copy.py:112-122 | A source named `True` against a destination named `1` leaves the difference empty, so the migration raises 'No unique names found' before any request. |
| Migration.ImageFile | copy.py:148-151 | An item without an `id` with a text fails before any request. Otherwise exactly one GET of `/asset/v1/content/assets/<id>/file` is sent. It succeeds exactly when the reply is accepted and readable and is not a truthy body without `items`. The value is the items when there are any, otherwise None. |
| Migration.Payload | copy.py:132-151 | The payload keys are name, assetType and category, plus the extras for the type: data and views for templatebasedemail; content, design, meta and slots for layoutblock and textblock; file for jpg, png and gif. The category is `{id: target}`. An absent extra is None. |
| Migration.AssetPayload | copy.py:125-151 | Only for a named item whose `assetType` has a `name`. The result is the payload for that type, with the fetched file for images. No POST is sent. |
| Migration.MigrateLoopPostsSelected | copy.py:125-158 | A completed loop posted a copy of each item whose name is in the unique set, in source order, one per item including duplicates, and skipped all others. Each copy is the payload the item's asset type calls for: name, assetType and the target category, the type's carried-over fields, and for an image the fetched file. |
| Migration.MigrateRestCopiesMissing | copy.py:110-159 | A completed REST migration had a non-empty difference `names(source) - names(destination)`. It posted exactly the source items named in it, in order. Each is posted as the payload its asset type calls for in the target folder, and their names are exactly the difference. Names are compared as a Python set compares them, so `True` matches `1`. |
| Migration.SecondRunCopiesNothing | copy.py:116-122 | When every source name is already in the destination, the migration raises before any request. |
| Migration.OnlyMissingNameIsPosted | copy.py:110-158 | Source {A, B} and destination {B}: exactly one POST, of A's copy. |
| EtFetch.RestParameters | et_fetch.py:40-52 | The parameter dict starts with `$page` '1' and `$pagesize` '50' and has at most five keys. |
| EtFetch.RestParametersShape | et_fetch.py:40-52 | No key appears twice. Each key is one of the five names, with the value the catalog reference gives. |
| EtFetch.RestParametersAreExpected | et_fetch.py:45-52 | `$orderBy`, `$filter` and `$fields` are present exactly when the catalog's `order_by`, `filter` and `fields` are present and truthy, with those values. No other key is added. |
| EtFetch.Endpoint | et_fetch.py:55-58 | Without an id the endpoint is used as it is. With an id, the substitution fails exactly when the id holds a backslash. |
| EtFetch.SubstituteEvery | et_fetch.py:55-58 | With an id, an endpoint made of brace-free parts joined by `{id}` gets the id at every placeholder: the parts joined by the id. |
| EtFetch.EndpointUnchanged | et_fetch.py:55-58 | The endpoint stays the same exactly when no id is given, it has no `{id}`, or the id is `{id}` itself. |
| EtFetch.SubstituteSingle | et_fetch.py:56 | An endpoint `p{id}q` with no other `{` becomes `p<oid>q`. |
| EtFetch.FetchingRest | et_fetch.py:29-76 | An unknown name gives `[]` and sends nothing. So does a method other than `get` in any case, a missing endpoint, and a non-string endpoint. When the `get` run fails with a Python error, or returns a body without `items`, the result is `[]`. A response comes back exactly when the entry dispatches to `get` and has a string endpoint, and the `get` run with `morerow` on that endpoint and parameters collects items. The result is then those items. |
| EtFetch.FetchingRestReadsPages | et_fetch.py:60-67 | A returned response read a whole page chain, with `$page` counting up from 1. Its results are the items of every page in order. |
| EtFetch.SubstitutedEndpointIsRequested | et_fetch.py:55-64 | With an id, the first request is a GET of the endpoint with the id in place, carrying the catalog parameters. |
| EtFetch.FetchingSoap | et_fetch.py:10-27 | An unknown name gives `[]` without a call. A missing `name` or `fields` raises KeyError. Otherwise the result is a drained retrieve of `name` with `fields` and no filter, and it succeeds exactly when that retrieve does. |
| EtFetch.FetchingSoapDrainsChain | fetch.py:12-29 | The same code in both files: the fetch succeeds exactly when the replies begin with a page chain, and then returns the chain's results in order. |
| Fetch.FetchingRest | fetch.py:31-73 | An unknown name, a method other than `get` and a missing endpoint give `[]`. For a string endpoint, the `get` run with `morerow` on the unchanged catalog endpoint decides: collected items come back as the response, and a raw body or a Python error gives `[]`. |
| Fetch.CatalogEndpointIsRequested | fetch.py:42-61 | Every request is a GET of the unchanged catalog endpoint with `$page` counting up. The first carries the parameters as built. |
| EtServer.DoGet | et_server.py:10-20 | `/` is served as `cytoscaple.html`. A path starting with `/` is served if and only if its remainder is one of the allowed files, and what is served is then in the allowlist. Any other path passes through unchanged. |
| EtServer.UnrootedPathBypassesAllowlist | et_server.py:12-20 | As written, the path `server.key` is not in the allowlist and still goes to the file handler. |
| EtServer.DoGetGuarded | et_server.py:10-20 | With the allowlist applied to every path, something is served exactly for `/` and for `/<allowed file>`, and only allowed files are ever served. Rooted paths are handled as written. |
| EtServer.NoTraversal | et_server.py:14-19 | A rooted path whose remainder holds `/`, `..`, `?`, `%` or `\` is answered 404, as written and with the guard. |
| EtServer.EveryAllowedFileServed | et_server.py:7-19 | Each allowed file is served at `/<name>`, as written and with the guard. |

## Left out

- Network I/O. The `requests` and zeep clients, WSDL type construction (`get_type`), transport settings and SOAP headers are replaced by the reply oracle and the request log.
- The token exchange's wire format. Each REST and SOAP call first asks `get_token` or `_refresh_token_if_needed` for a token. That step is not threaded through the `RestClient`, `SoapClient`, `Migration`, `EtFetch` and `Fetch` models, which take a valid token for granted. `TokenManager` models the expiry rule separately.
- `TokenManager.GetToken`: the clock is read once per call, and that reading is used both for the expiry test and for the new expiry. The source reads `time.time()` again after the token POST (ET_Client.py:43), so the expiry stored here is earlier than the source's by the length of that round trip.
- `time.time()` returns a float. The clock is whole seconds, and a float `expires_in` is not modelled: only an int, a bool or absence is.
- Dict key order is not tracked. So `str()` of a non-empty list or dict, and iterating a dict, give `Unmodelled`.
- `EtFetch.Endpoint`: a backslash in the object id gives `Unmodelled`, because `re.sub` would read it as a template escape.
- `update`, `delete` and `describe` (ET_Client.py:162-176) only forward a call to the SOAP service, so they are left out. So are `print_last_soap_request` and `print_last_soap_response`.
- The `save` functions, `et_build.py`, logging and printing are left out, because they are pandas, CSV and file output.
- The argparse `main` functions, which wire arguments to the modelled functions, are left out. They contain arity bugs: copy.py:202 passes 5 arguments to the 4-argument `migrate_soap_objects`, et_fetch.py:142 calls `fetching_soap` without the client, and et_fetch.py:145 passes `id=` where the parameter is `oid`.
- et_server.py's TLS socket setup (its key file is the `server.key` of the finding below), its start-up file-existence check, and the standard library's file serving after the path rewrite are left out.
- `find_object_by_name`, `load_lookup_lists` and `folder_find_path` are not part of this model.
- `Migration.MigrateRest` posts through the corrected `RestClient.Post`. As written, the first POST raises `AttributeError` (see Findings), which would stop the loop after one asset.
- `RestClient.PostCopies` posts through the corrected `RestClient.Post`. As written, ET_Client.py:300 calls `post`, whose first accepted POST raises `AttributeError` (see Findings), so the source stops after one asset.
- `RestClient.Get`: its own contract covers `morerow` off and a URL that cannot be built. The paged case is stated by `RestClient.GetReadsChain`.
- `Text.ParseInt`: Python's `int()` also accepts surrounding whitespace, `_` between digits and non-ASCII decimal digits. The model accepts only an optional sign and ASCII digits, so a caller-supplied `$page` such as `" 2"` or `"1_0"` is a ValueError here where Python would go on to page 3 or 11.
- `SoapClient.Retrieve` and `Migration.FetchSoapObjects`: a SOAP response is modelled as a dict, `Record`. `fetch_soap_objects` and `migrate_soap_objects` read the responses with `.get("Status")`, `.get("Results", [])`, `.get("status")` and `not resp`, and the records with `.get("CategoryID")` and `.items()`. The model gives these dict meaning: a response is falsy exactly when it is empty. The zeep objects returned at ET_Client.py:138 are read by attribute elsewhere, and whether they answer these dict calls is not modelled.
- `Migration.FetchSoapObjects`: its own contract states only the call and the result's shape. Filtering is stated by `Migration.FetchSoapKeepsFolder`, for a server that answers.

Two behaviours differ from what a reader might expect of the client. The model follows the code:

- The REST loop stops when a page has no `count` key at all. It does not compare `count` with page × page size.
- A drained SOAP retrieve reports `OverallStatus` 'OK' whatever the last page said, even a failure.

## Findings

| source | as written | input that shows it | evidently intended | confidence | as-written member | corrected member |
|---|---|---|---|---|---|---|
| ET_Client.py:236 | `post` builds its result with `response.josn()` | any POST the server accepts: the request is sent, then AttributeError | `response.json()`, returning the decoded body | high, not executed | RestClient.PostAsWritten | RestClient.Post |
| ET_Client.py:252 | `patch` builds its result with `response.josn()` | any PATCH the server accepts: the request is sent, then AttributeError | `response.json()` | high, not executed | RestClient.PatchAsWritten | RestClient.Patch |
| et_server.py:12-20 | `do_GET` checks the allowlist only for a path that starts with `/`; any other path goes to the file handler unchanged | the request line `GET server.key HTTP/1.1`: the TLS private key, which sits in the served directory, reaches the file handler | refuse every path outside the allowlist | medium, not executed | EtServer.UnrootedPathBypassesAllowlist | EtServer.DoGetGuarded |
| ET_Client.py:280-288 | `copy` calls `.get('items', [])` on what `get` returns with `morerow=True` | a folder whose pages all carry `items`: `get` returns a response object, which has no `.get`, so AttributeError is raised and no asset is posted. A body without `items` comes back raw, and its `.get('items', [])` is `[]`. | iterate the response's `Results` | high, not executed | RestClient.CopyAsWrittenPostsNothing | RestClient.CopyPostsEveryAsset |

=== FILE: base.dfy ===
/**
 Failure-carrying results shared by every module: `Option`, the Python
 exceptions the modelled code can raise, and `Result`.
 */
module Base {

  datatype Option<+T> = None | Some(value: T) {
    function GetOr(default: T): T
    {
      if Some? then value else default
    }
  }

  /** The exceptions the modelled code raises, and the failure of an exhausted server. */
  datatype Error =
    | HttpError(status: int)       // requests' `raise_for_status` on a 4xx or 5xx reply
    | ConnectionError              // the server gave no reply
    | SoapFault                    // zeep raises a Fault
    | JsonDecodeError              // `response.json()` on a body that is not JSON
    | KeyError(key: string)
    | TypeError
    | ValueError
    | AttributeError(name: string)
    | Raised(message: string)      // an explicit `raise Exception(message)`
    | Unmodelled                   // the text of a non-empty list or dict, whose key order the model does not keep

  datatype Result<+T> = Ok(value: T) | Err(error: Error) {
    predicate IsFailure()
    {
      Err?
    }

    function PropagateFailure<U>(): Result<U>
      requires Err?
    {
      Err(error)
    }

    function Extract(): T
      requires Ok?
    {
      value
    }
  }
}

=== FILE: et_fetch.dfy ===
/**
 The catalog-driven fetchers of `et_fetch.py`. A catalog entry (the dict the
 lookup `find_object_by_name` returns, or nothing) names either a SOAP object
 with its fields, or a REST resource with its HTTP method, endpoint and
 optional `order_by`, `filter` and `fields`. The REST fetcher may substitute
 an object id into the endpoint and swallows every error into `[]`.
 */
module EtFetch {
  import opened Base
  import opened Values
  import opened Text
  import opened Net
  import opened SoapClient
  import opened RestClient

  /** What a fetcher hands back: `[]`, or a complete response carrying these `Results`. */
  datatype Fetched = EmptyList | Listing(results: seq<Value>)

  /** `not res` for the lookup's answer: nothing found, or an empty entry. */
  predicate Missing(entry: Option<Record>)
  {
    entry.None? || entry.value == map[]
  }

  // ---------------------------------------------------------------------
  // Query parameters

  /** The parameter `name` taken from the entry's `key` when that is present and truthy. */
  function OptionalParam(entry: Record, key: string, name: string): Params
  {
    if Truthy(Lookup(entry, key, VNone)) then [(name, entry[key])] else []
  }

  /** The parameter dict of a REST fetch, in insertion order. */
  function RestParameters(entry: Record): (r: Params)
    ensures 2 <= |r| <= 5
    ensures r[..2] == [("$page", VStr("1")), ("$pagesize", VStr("50"))]
  {
    [("$page", VStr("1")), ("$pagesize", VStr("50"))]
      + OptionalParam(entry, "order_by", "$orderBy")
      + OptionalParam(entry, "filter", "$filter")
      + OptionalParam(entry, "fields", "$fields")
  }

  /**
   Reference reading of the parameter dict, key by key: the two fixed paging
   keys, each optional key exactly when its catalog key is truthy, and nothing else.
   */
  function ExpectedParam(entry: Record, name: string): Option<Value>
  {
    if name == "$page" then Some(VStr("1"))
    else if name == "$pagesize" then Some(VStr("50"))
    else if name == "$orderBy" && Truthy(Lookup(entry, "order_by", VNone)) then Some(entry["order_by"])
    else if name == "$filter" && Truthy(Lookup(entry, "filter", VNone)) then Some(entry["filter"])
    else if name == "$fields" && Truthy(Lookup(entry, "fields", VNone)) then Some(entry["fields"])
    else None
  }

  /** No key is set twice. */
  predicate DistinctKeys(ps: Params)
  {
    forall i, j :: 0 <= i < j < |ps| ==> ps[i].0 != ps[j].0
  }

  predicate HasKey(ps: Params, name: string)
  {
    exists i :: 0 <= i < |ps| && ps[i].0 == name
  }

  /** Every key of the parameter dict, one entry each, in one of five places. */
  lemma RestParametersShape(entry: Record)
    ensures var ps := RestParameters(entry);
      && DistinctKeys(ps)
      && (forall i :: 0 <= i < |ps| ==> ps[i].0 in {"$page", "$pagesize", "$orderBy", "$filter", "$fields"})
      && (forall i :: 0 <= i < |ps| ==> ExpectedParam(entry, ps[i].0) == Some(ps[i].1))
  {
  }

  /** The parameter dict holds `name` exactly when the reference says it does, and with the value the reference gives. */
  lemma RestParametersAreExpected(entry: Record, name: string)
    ensures HasKey(RestParameters(entry), name) <==> ExpectedParam(entry, name).Some?
    ensures ExpectedParam(entry, name).Some? ==> Param(RestParameters(entry), name, VNone) == ExpectedParam(entry, name).value
  {
    var ps := RestParameters(entry);
    RestParametersShape(entry);
    if ExpectedParam(entry, name).Some? {
      var o := OptionalParam(entry, "order_by", "$orderBy");
      var f := OptionalParam(entry, "filter", "$filter");
      var i: nat :=
        if name == "$page" then 0
        else if name == "$pagesize" then 1
        else if name == "$orderBy" then 2
        else if name == "$filter" then 2 + |o|
        else 2 + |o| + |f|;
      assert i < |ps| && ps[i].0 == name;
      ParamFound(ps, i);
    }
  }

  // ---------------------------------------------------------------------
  // The endpoint

  /** `oid` counts as given (`if oid:`). */
  predicate Given(oid: Option<string>)
  {
    oid.Some? && |oid.value| > 0
  }

  /**
   The resource path: every `{id}` replaced by the id when one is given. A
   backslash in the id would be read as a replacement-template escape, which
   is not modelled.
   */
  function Endpoint(endpoint: string, oid: Option<string>): (r: Result<string>)
    ensures r.Err? <==> Given(oid) && '\\' in oid.value
    ensures r.Err? ==> r.error == Unmodelled
    ensures !Given(oid) ==> r == Ok(endpoint)
  {
    if Given(oid) then
      if '\\' in oid.value then Err(Unmodelled) else Ok(ReplaceAll(endpoint, "{id}", oid.value))
    else Ok(endpoint)
  }

  /** The endpoint is used unchanged exactly when no id is given, it has no placeholder, or the id is the placeholder itself. */
  lemma EndpointUnchanged(endpoint: string, oid: Option<string>)
    requires Endpoint(endpoint, oid).Ok?
    ensures Endpoint(endpoint, oid) == Ok(endpoint) <==> !Given(oid) || !Occurs("{id}", endpoint) || oid.value == "{id}"
  {
    if Given(oid) {
      ReplaceAllIdentity(endpoint, "{id}", oid.value);
    }
  }

  /** Text without `{` is left alone by the substitution. */
  lemma {:induction false} NoBraceNoChange(s: string, rep: string)
    requires '{' !in s
    ensures ReplaceAll(s, "{id}", rep) == s
  {
    forall i | 0 <= i <= |s| ensures !OccursAt("{id}", s, i) {
      if i + 4 <= |s| {
        assert s[i..i + 4][0] == s[i] != '{';
      }
    }
    ReplaceAllWithoutOccurrence(s, "{id}", rep);
  }

  /** Text before the placeholder without `{` is copied through up to it. */
  lemma {:induction false} SubstituteAfterPrefix(p: string, t: string, rep: string)
    requires '{' !in p
    ensures ReplaceAll(p + t, "{id}", rep) == p + ReplaceAll(t, "{id}", rep)
    decreases |p|
  {
    if |p| > 0 {
      var s := p + t;
      SubstituteAfterPrefix(p[1..], t, rep);
      assert s[1..] == p[1..] + t;
      assert [p[0]] + p[1..] == p;
      if |s| >= 4 {
        assert s[..4] != "{id}" by {
          assert s[..4][0] == p[0] != '{';
        }
        calc {
          ReplaceAll(s, "{id}", rep);
          [p[0]] + ReplaceAll(s[1..], "{id}", rep);
          [p[0]] + (p[1..] + ReplaceAll(t, "{id}", rep));
          p + ReplaceAll(t, "{id}", rep);
        }
      } else {
        assert ReplaceAll(t, "{id}", rep) == t;
      }
    } else {
      assert p + t == t;
    }
  }

  /** An endpoint with one placeholder and no other `{` gets the id in the placeholder's place. */
  lemma SubstituteSingle(p: string, q: string, oid: string)
    requires '{' !in p && '{' !in q
    requires |oid| > 0 && '\\' !in oid
    ensures Endpoint(p + "{id}" + q, Some(oid)) == Ok(p + oid + q)
  {
    var t := "{id}" + q;
    assert p + "{id}" + q == p + t;
    SubstituteAfterPrefix(p, t, oid);
    assert t[..4] == "{id}" && t[4..] == q;
    NoBraceNoChange(q, oid);
    assert ReplaceAll(t, "{id}", oid) == oid + q;
    assert p + (oid + q) == p + oid + q;
  }

  /** Placeholders between brace-free parts are each replaced by the text `rep`. */
  lemma {:induction false} ReplaceEveryPlaceholder(parts: seq<string>, rep: string)
    requires |parts| >= 1
    requires forall i :: 0 <= i < |parts| ==> '{' !in parts[i]
    ensures ReplaceAll(Join("{id}", parts), "{id}", rep) == Join(rep, parts)
    decreases |parts|
  {
    if |parts| == 1 {
      NoBraceNoChange(parts[0], rep);
    } else {
      var rest := Join("{id}", parts[1..]);
      var t := "{id}" + rest;
      assert Join("{id}", parts) == parts[0] + t;
      SubstituteAfterPrefix(parts[0], t, rep);
      assert t[..4] == "{id}" && t[4..] == rest;
      ReplaceEveryPlaceholder(parts[1..], rep);
      assert parts[0] + (rep + Join(rep, parts[1..])) == Join(rep, parts);
    }
  }

  /** With an id, an endpoint of brace-free parts joined by `{id}` has the id at every placeholder. */
  lemma SubstituteEvery(parts: seq<string>, oid: string)
    requires |parts| >= 1
    requires forall i :: 0 <= i < |parts| ==> '{' !in parts[i]
    requires |oid| > 0 && '\\' !in oid
    ensures Endpoint(Join("{id}", parts), Some(oid)) == Ok(Join(oid, parts))
  {
    ReplaceEveryPlaceholder(parts, oid);
  }

  // ---------------------------------------------------------------------
  // Fetching

  /**
   `getattr(client, res['method'].lower(), None)` lands on `get`, the one
   client method that accepts `resourcepath`, `parameters` and `morerow`;
   any other answer fails when called.
   */
  predicate DispatchesToGet(entry: Record)
  {
    "method" in entry && entry["method"].VStr? && Lower(entry["method"].s) == "get"
  }

  /** Python errors are swallowed into `[]`; only what the model cannot tell survives. */
  function Swallow(e: Error, net: Http): (r: Step<Fetched, Http>)
    ensures r.chan == net
    ensures r.res.Err? <==> e == Unmodelled
  {
    if e == Unmodelled then Step(Err(Unmodelled), net) else Step(Ok(EmptyList), net)
  }

  /**
   `fetching_rest(client, objectname, objectlist, oid)`, with `entry` what the
   lookup found. Every request it makes is a `get` run with `morerow` on;
   every Python error becomes `[]`, and so does a page without `items`, since
   that body has no `OverallStatus`.
   */
  function FetchingRest(entry: Option<Record>, oid: Option<string>, base: string, net: Http): (r: Step<Fetched, Http>)
    ensures Missing(entry) ==> r == Step(Ok(EmptyList), net)
    ensures !Missing(entry) && !DispatchesToGet(entry.value) ==> r == Step(Ok(EmptyList), net)
    ensures r.res.Err? ==> r.res.error == Unmodelled
    ensures r.res.Ok? && r.res.value.Listing? <==>
      && !Missing(entry)
      && DispatchesToGet(entry.value)
      && "endpoint" in entry.value && entry.value["endpoint"].VStr?
      && Endpoint(entry.value["endpoint"].s, oid).Ok?
      && var g := Get(base, Endpoint(entry.value["endpoint"].s, oid).value, RestParameters(entry.value), true, net);
         g.res.Ok? && g.res.value.Collected?
    ensures r.res.Ok? && r.res.value.Listing? ==>
      var g := Get(base, Endpoint(entry.value["endpoint"].s, oid).value, RestParameters(entry.value), true, net);
      r == Step(Ok(Listing(g.res.value.results)), g.chan)
    ensures !Missing(entry) && DispatchesToGet(entry.value) && "endpoint" in entry.value
            && entry.value["endpoint"].VStr? && Endpoint(entry.value["endpoint"].s, oid).Ok? ==>
      var g := Get(base, Endpoint(entry.value["endpoint"].s, oid).value, RestParameters(entry.value), true, net);
      && (g.res.Err? && g.res.error != Unmodelled ==> r == Step(Ok(EmptyList), g.chan))
      && (g.res.Err? && g.res.error == Unmodelled ==> r == Step(Err(Unmodelled), g.chan))
      && (g.res.Ok? && g.res.value.RawBody? ==> r == Step(Ok(EmptyList), g.chan))
    ensures !Missing(entry) && "endpoint" !in entry.value ==> r == Step(Ok(EmptyList), net)
    ensures !Missing(entry) && "endpoint" in entry.value && !entry.value["endpoint"].VStr? ==>
      r.chan == net && (r.res.Ok? ==> r.res.value == EmptyList)
  {
    if Missing(entry) then Step(Ok(EmptyList), net)
    else
      var e := entry.value;
      if !DispatchesToGet(e) then Step(Ok(EmptyList), net)
      else if "endpoint" !in e then Step(Ok(EmptyList), net)
      else
        var ps := RestParameters(e);
        if !e["endpoint"].VStr? then
          // `re.sub` refuses a non-string; without an id `get` builds its query, then finds no `lstrip`.
          if Given(oid) then Step(Ok(EmptyList), net)
          else
            var q := Query(ps);
            Swallow(if q.Err? then q.error else AttributeError("lstrip"), net)
        else
          var path := Endpoint(e["endpoint"].s, oid);
          if path.Err? then Step(Err(path.error), net)
          else
            var g := Get(base, path.value, ps, true, net);
            match g.res
            case Err(err) => Swallow(err, g.chan)
            case Ok(RawBody(_)) => Step(Ok(EmptyList), g.chan)
            case Ok(Collected(xs)) => Step(Ok(Listing(xs)), g.chan)
  }

  /**
   A REST fetch that returns a response read a whole page chain from the
   server: the pages requested are the entry's parameters with `$page`
   counting up from 1, and the results are the items of every page in order.
   */
  lemma FetchingRestReadsPages(entry: Option<Record>, oid: Option<string>, base: string, net: Http)
    requires var r := FetchingRest(entry, oid, base, net); r.res.Ok? && r.res.value.Listing?
    ensures var r := FetchingRest(entry, oid, base, net);
      var path := Endpoint(entry.value["endpoint"].s, oid).value;
      var ps := RestParameters(entry.value);
      exists k: nat ::
        && GetChain(base, path, ps, true, net, k)
        && r.res.value.results == Harvest(net.replies[..k])
        && r.chan.replies == net.replies[k..]
        && |r.chan.sent| == |net.sent| + k
        && r.chan.sent[..|net.sent|] == net.sent
        && PageRequests(Urls(base, path), ps, 0, r.chan.sent[|net.sent|..])
  {
    var r := FetchingRest(entry, oid, base, net);
    var path := Endpoint(entry.value["endpoint"].s, oid).value;
    var ps := RestParameters(entry.value);
    GetReadsChain(base, path, ps, true, net);
    var k: nat :| GetChain(base, path, ps, true, net, k);
    assert Outcome([], net.replies[..k]).Collected?;
  }

  /**
   With an id and an endpoint holding one placeholder, the first request of a
   successful REST fetch is a GET of the endpoint with the id in place, carrying
   the entry's parameters.
   */
  lemma SubstitutedEndpointIsRequested(entry: Record, p: string, q: string, oid: string, base: string, net: Http)
    requires "endpoint" in entry && entry["endpoint"] == VStr(p + "{id}" + q)
    requires '{' !in p && '{' !in q && |oid| > 0 && '\\' !in oid
    requires var r := FetchingRest(Some(entry), Some(oid), base, net); r.res.Ok? && r.res.value.Listing?
    ensures var r := FetchingRest(Some(entry), Some(oid), base, net);
      && |r.chan.sent| > |net.sent|
      && Url(base, p + oid + q, RestParameters(entry)).Ok?
      && r.chan.sent[|net.sent|] == Request(GET, Url(base, p + oid + q, RestParameters(entry)).value, None)
  {
    var r := FetchingRest(Some(entry), Some(oid), base, net);
    SubstituteSingle(p, q, oid);
    FetchingRestReadsPages(Some(entry), Some(oid), base, net);
    var ps := RestParameters(entry);
    var k: nat :| && GetChain(base, p + oid + q, ps, true, net, k)
                  && |r.chan.sent| == |net.sent| + k
                  && PageRequests(Urls(base, p + oid + q), ps, 0, r.chan.sent[|net.sent|..]);
    assert PageRequest(Urls(base, p + oid + q), ps, 0, r.chan.sent[|net.sent|..][0]);
    assert PageParams(ps, 0) == ps;
  }

  /**
   `fetching_soap(client, objectname, objectlist)`: `[]` when the lookup found
   nothing; otherwise a drained retrieve of the entry's `name` with its
   `fields` and no filter, whose errors are not caught.
   */
  function FetchingSoap(entry: Option<Record>, net: Soap): (r: Step<Fetched, Soap>)
    ensures Missing(entry) ==> r == Step(Ok(EmptyList), net)
    ensures !Missing(entry) && "name" !in entry.value ==> r == Step(Err(KeyError("name")), net)
    ensures !Missing(entry) && "name" in entry.value && "fields" !in entry.value ==> r == Step(Err(KeyError("fields")), net)
    ensures r.res.Ok? && !Missing(entry) ==>
      && r.res.value.Listing?
      && Retrieve(entry.value["name"], entry.value["fields"], VNone, true, net)
         == Step(Ok(Drained(r.res.value.results)), r.chan)
    ensures !Missing(entry) && "name" in entry.value && "fields" in entry.value ==>
      (r.res.Ok? <==> Retrieve(entry.value["name"], entry.value["fields"], VNone, true, net).res.Ok?)
  {
    if Missing(entry) then Step(Ok(EmptyList), net)
    else
      var e := entry.value;
      if "name" !in e then Step(Err(KeyError("name")), net)
      else if "fields" !in e then Step(Err(KeyError("fields")), net)
      else
        var s := Retrieve(e["name"], e["fields"], VNone, true, net);
        match s.res
        case Err(err) => Step(Err(err), s.chan)
        case Ok(response) => Step(Ok(Listing(response["Results"].items)), s.chan)
  }

  /**
   A SOAP fetch that returns a response drained a chain of pages: exactly
   those replies are consumed, one call each, and the results are the pages'
   results in order.
   */
  lemma FetchingSoapDrainsChain(entry: Record, net: Soap)
    requires "name" in entry && "fields" in entry
    ensures var r := FetchingSoap(Some(entry), net);
      r.res.Ok? <==> exists k :: 1 <= k <= |net.replies| && RetrieveChain(net, k)
    ensures var r := FetchingSoap(Some(entry), net);
      forall k :: 1 <= k <= |net.replies| && RetrieveChain(net, k) ==>
        && r.res == Ok(Listing(Gather(Bodies(net.replies[..k])).value))
        && r.chan.replies == net.replies[k..]
        && |r.chan.sent| == |net.sent| + k
  {
    RetrieveDrainsChain(entry["name"], entry["fields"], VNone, net);
  }
}

=== FILE: et_server.dfy ===
/**
 The request handler of `et_server.py`: a static file server that answers a
 GET for the site root with the graph page, serves three named files, and
 refuses every other rooted path with 404.
 */
module EtServer {
  import opened Text

  /** The files the server agrees to hand out. */
  const AllowedFiles: seq<string> := ["cytoscaple.html", "activities.json", "automations.json"]

  /** What the handler does with a request path. */
  datatype Handling =
    | Serve(path: string)   // hand the (rewritten) path to the standard file handler
    | NotFound              // answer 404 "File not found"

  /** `MultiFileHandler.do_GET` on the request path `path`, as written. */
  function DoGet(path: string): (h: Handling)
    ensures path == "/" ==> h == Serve("cytoscaple.html")
    ensures |path| == 0 || path[0] != '/' ==> h == Serve(path)
    ensures |path| > 1 && path[0] == '/' ==> (h.Serve? <==> path[1..] in AllowedFiles)
    ensures |path| > 0 && path[0] == '/' && h.Serve? ==> h.path in AllowedFiles
  {
    if path == "/" then Serve("cytoscaple.html")
    else if |path| > 0 && path[0] == '/' then
      var requested := path[1..];
      if requested !in AllowedFiles then NotFound else Serve(requested)
    else Serve(path)
  }

  /** The TLS private key the server loads from the directory it serves. */
  const KeyFile := "server.key"

  /** As written, a request path without the leading slash skips the allowlist: the TLS key goes to the file handler. */
  lemma UnrootedPathBypassesAllowlist()
    ensures KeyFile !in AllowedFiles
    ensures DoGet(KeyFile) == Serve(KeyFile)
  {
    assert KeyFile[0] == 's';
  }

  /** `do_GET` with the allowlist applied to every path, rooted or not. */
  function DoGetGuarded(path: string): (h: Handling)
    ensures h.Serve? ==> h.path in AllowedFiles
    ensures h.Serve? <==> path == "/" || (|path| > 1 && path[0] == '/' && path[1..] in AllowedFiles)
    ensures |path| > 0 && path[0] == '/' ==> h == DoGet(path)
  {
    if |path| > 0 && path[0] == '/' then DoGet(path) else NotFound
  }

  /** No allowed file name holds a slash, a dot-dot, a query mark or a percent sign. */
  lemma AllowedFilesArePlain()
    ensures forall f :: f in AllowedFiles ==> '/' !in f && '?' !in f && '%' !in f && '\\' !in f
    ensures forall f :: f in AllowedFiles ==> !Occurs("..", f)
  {
    forall f | f in AllowedFiles ensures !Occurs("..", f) {
      assert forall i :: 0 <= i < |f| - 1 ==> !(f[i] == '.' && f[i + 1] == '.');
      forall i | 0 <= i <= |f| ensures !OccursAt("..", f, i) {
        if i + 2 <= |f| {
          assert f[i..i + 2][0] == f[i] && f[i..i + 2][1] == f[i + 1];
        }
      }
    }
  }

  /**
   A rooted request that climbs a directory, names a nested path, or carries a
   query string or an escape is refused.
   */
  lemma NoTraversal(path: string)
    requires |path| > 1 && path[0] == '/'
    requires '/' in path[1..] || '?' in path[1..] || '%' in path[1..] || '\\' in path[1..] || Occurs("..", path[1..])
    ensures DoGet(path) == NotFound
    ensures DoGetGuarded(path) == NotFound
  {
    AllowedFilesArePlain();
  }

  /** Every allowed file is reachable at its rooted path. */
  lemma EveryAllowedFileServed(f: string)
    requires f in AllowedFiles
    ensures DoGet("/" + f) == Serve(f)
    ensures DoGetGuarded("/" + f) == Serve(f)
  {
    assert ("/" + f)[1..] == f;
    assert "/" + f != "/";
  }
}

=== FILE: fetch.dfy ===
/**
 The fetchers of `fetch.py`, the older copy of `et_fetch.py`: the same
 catalog lookup and parameter dict, but no object id, so the REST endpoint
 goes out exactly as the catalog spells it. Its `fetching_soap` is the same
 code as in `et_fetch.py` and is modelled by `EtFetch.FetchingSoap`.
 */
module Fetch {
  import opened Base
  import opened Values
  import opened Net
  import opened RestClient
  import opened EtFetch

  /**
   `fetching_rest(objectname, objectlist)`: `[]` for a missing entry, for
   any Python error and for a body without `items`; otherwise the items of a
   `get` run on the catalog endpoint with the catalog parameters.
   */
  function FetchingRest(entry: Option<Record>, base: string, net: Http): (r: Step<Fetched, Http>)
    ensures Missing(entry) ==> r == Step(Ok(EmptyList), net)
    ensures !Missing(entry) && !DispatchesToGet(entry.value) ==> r == Step(Ok(EmptyList), net)
    ensures r.res.Err? ==> r.res.error == Unmodelled
    ensures r.res.Ok? && r.res.value.Listing? ==>
      && !Missing(entry)
      && DispatchesToGet(entry.value)
      && "endpoint" in entry.value && entry.value["endpoint"].VStr?
      && var g := Get(base, entry.value["endpoint"].s, RestParameters(entry.value), true, net);
         && g.res == Ok(Collected(r.res.value.results))
         && g.chan == r.chan
    ensures !Missing(entry) && DispatchesToGet(entry.value) && "endpoint" in entry.value && entry.value["endpoint"].VStr? ==>
      var g := Get(base, entry.value["endpoint"].s, RestParameters(entry.value), true, net);
      && (g.res.Ok? && g.res.value.Collected? ==> r == Step(Ok(Listing(g.res.value.results)), g.chan))
      && (g.res.Ok? && g.res.value.RawBody? ==> r == Step(Ok(EmptyList), g.chan))
      && (g.res.Err? && g.res.error != Unmodelled ==> r == Step(Ok(EmptyList), g.chan))
      && (g.res.Err? && g.res.error == Unmodelled ==> r == Step(Err(Unmodelled), g.chan))
    ensures !Missing(entry) && "endpoint" !in entry.value ==> r == Step(Ok(EmptyList), net)
    ensures !Missing(entry) && "endpoint" in entry.value && !entry.value["endpoint"].VStr? ==>
      r.chan == net && (r.res.Ok? ==> r.res.value == EmptyList)
  {
    EtFetch.FetchingRest(entry, None, base, net)
  }

  /**
   Every request of a successful fetch is a GET of the catalog endpoint,
   unchanged, with the catalog parameters and `$page` counting up from 1;
   the first carries the parameters as built.
   */
  lemma CatalogEndpointIsRequested(entry: Record, base: string, net: Http)
    requires var r := FetchingRest(Some(entry), base, net); r.res.Ok? && r.res.value.Listing?
    ensures var r := FetchingRest(Some(entry), base, net);
      var endpoint := entry["endpoint"].s;
      && |r.chan.sent| > |net.sent|
      && r.chan.sent[..|net.sent|] == net.sent
      && PageRequests(Urls(base, endpoint), RestParameters(entry), 0, r.chan.sent[|net.sent|..])
      && Url(base, endpoint, RestParameters(entry)).Ok?
      && r.chan.sent[|net.sent|] == Request(GET, Url(base, endpoint, RestParameters(entry)).value, None)
  {
    var r := FetchingRest(Some(entry), base, net);
    var endpoint := entry["endpoint"].s;
    var ps := RestParameters(entry);
    assert Endpoint(endpoint, None) == Ok(endpoint);
    FetchingRestReadsPages(Some(entry), None, base, net);
    var k: nat :| && GetChain(base, endpoint, ps, true, net, k)
                  && |r.chan.sent| == |net.sent| + k
                  && r.chan.sent[..|net.sent|] == net.sent
                  && PageRequests(Urls(base, endpoint), ps, 0, r.chan.sent[|net.sent|..]);
    assert PageRequest(Urls(base, endpoint), ps, 0, r.chan.sent[|net.sent|..][0]);
    assert PageParams(ps, 0) == ps;
  }
}

=== FILE: migration.dfy ===
/**
 The folder-to-folder migration engine (`copy.py`): fetch the objects of a
 source folder over SOAP or REST, then recreate them in a target folder.
 SOAP objects are recreated one Create per object; REST assets are posted
 only when no asset of the same name is already in the target folder.
 */
module Migration {
  import opened Base
  import opened Values
  import opened Net
  import opened SoapClient
  import opened RestClient

  // ---------------------------------------------------------------------
  // SOAP

  /** `str(r.get("CategoryID"))`: the folder a SOAP record lists itself in; a record without one reads as "None". */
  function FolderText(r: Value): Result<string>
  {
    if r.VMap? then StrOf(Lookup(r.fields, "CategoryID", VNone)) else Err(AttributeError("get"))
  }

  /** The records of `xs` whose folder text is `folder`, in order; a record whose folder has no text fails. */
  function KeepFolder(xs: seq<Value>, folder: string): (r: Result<seq<Value>>)
    ensures r.Ok? ==> |r.value| <= |xs|
    decreases |xs|
  {
    if |xs| == 0 then Ok([])
    else
      var f :- FolderText(xs[0]);
      var rest :- KeepFolder(xs[1..], folder);
      Ok(if f == folder then [xs[0]] + rest else rest)
  }

  /** The list comprehension `[x for x in xs if str(x.get("CategoryID")) == folder]`: order and repeats kept. */
  function Filtered(xs: seq<Value>, folder: string): seq<Value>
    decreases |xs|
  {
    if |xs| == 0 then []
    else (if FolderText(xs[0]) == Ok(folder) then [xs[0]] else []) + Filtered(xs[1..], folder)
  }

  /** The comprehension keeps every copy of a record that names the folder and no copy of any other. */
  lemma {:induction false} FilteredCounts(xs: seq<Value>, folder: string, x: Value)
    ensures multiset(Filtered(xs, folder))[x] == if FolderText(x) == Ok(folder) then multiset(xs)[x] else 0
    decreases |xs|
  {
    if |xs| > 0 {
      FilteredCounts(xs[1..], folder, x);
      assert xs == [xs[0]] + xs[1..];
      assert multiset(xs) == multiset([xs[0]]) + multiset(xs[1..]);
    }
  }

  /**
   The folder filter fails exactly when some record has no folder text;
   otherwise it is the comprehension, and a kept record is exactly a record
   of `xs` that lists itself in `folder`.
   */
  lemma {:induction false} KeepFolderExactly(xs: seq<Value>, folder: string)
    ensures KeepFolder(xs, folder).Ok? <==> forall i :: 0 <= i < |xs| ==> FolderText(xs[i]).Ok?
    ensures KeepFolder(xs, folder).Ok? ==> KeepFolder(xs, folder).value == Filtered(xs, folder)
    ensures KeepFolder(xs, folder).Ok? ==> forall x ::
      x in KeepFolder(xs, folder).value <==> x in xs && FolderText(x) == Ok(folder)
    decreases |xs|
  {
    if |xs| > 0 {
      KeepFolderExactly(xs[1..], folder);
      if FolderText(xs[0]).Ok? && KeepFolder(xs[1..], folder).Ok? {
        forall i | 1 <= i < |xs| ensures FolderText(xs[i]).Ok? {
          assert xs[i] == xs[1..][i - 1];
        }
        assert xs == [xs[0]] + xs[1..];
      } else if FolderText(xs[0]).Ok? {
        var i :| 0 <= i < |xs[1..]| && !FolderText(xs[1..][i]).Ok?;
        assert xs[1..][i] == xs[i + 1];
      }
    }
  }

  /**
   `fetch_soap_objects`: one unpaged Retrieve; an empty response or one whose
   `Status` is False gives no objects; with a folder, only the records that
   list themselves in it are kept, otherwise `Results` is returned as it came.
   */
  function FetchSoapObjects(objectName: Value, props: Value, folder: Value, net: Soap): (r: Step<Value, Soap>)
    ensures r.chan.sent == net.sent + [RetrieveCall(NewRequest(objectName, props, VNone))]
    ensures r.res.Ok? && Truthy(folder) ==> r.res.value.VList?
  {
    var resp := Retrieve(objectName, props, VNone, false, net);
    if resp.res.Err? then Step(Err(resp.res.error), resp.chan)
    else
      var body := resp.res.value;
      if |body| == 0 || Lookup(body, "Status", VNone) == VBool(false) then Step(Ok(VList([])), resp.chan)
      else
        var results := Lookup(body, "Results", VList([]));
        if !Truthy(folder) then Step(Ok(results), resp.chan)
        else
          var want := StrOf(folder);
          if want.Err? then Step(Err(want.error), resp.chan)
          else
            var xs := Iterate(results);
            if xs.Err? then Step(Err(xs.error), resp.chan)
            else
              var kept := KeepFolder(xs.value, want.value);
              if kept.Err? then Step(Err(kept.error), resp.chan)
              else Step(Ok(VList(kept.value)), resp.chan)
  }

  /**
   With a folder, a fetch keeps exactly the listed records that name that
   folder; without one it hands back `Results` untouched; a failed or empty
   response gives no objects.
   */
  lemma FetchSoapKeepsFolder(objectName: Value, props: Value, folder: Value, body: Record, net: Soap)
    requires |net.replies| > 0 && net.replies[0] == Response(body)
    ensures var r := FetchSoapObjects(objectName, props, folder, net);
      && (|body| == 0 || Lookup(body, "Status", VNone) == VBool(false) ==> r.res == Ok(VList([])))
      && (|body| > 0 && Lookup(body, "Status", VNone) != VBool(false) && !Truthy(folder) ==>
            r.res == Ok(Lookup(body, "Results", VList([]))))
      && (r.res.Ok? && |body| > 0 && Lookup(body, "Status", VNone) != VBool(false) && Truthy(folder) ==>
            && Str(folder).Some?
            && Iterate(Lookup(body, "Results", VList([]))).Ok?
            && r.res.value.items == Filtered(Iterate(Lookup(body, "Results", VList([]))).value, Str(folder).value)
            && forall x :: x in r.res.value.items <==>
                 x in Iterate(Lookup(body, "Results", VList([]))).value && FolderText(x) == Ok(Str(folder).value))
  {
    var r := FetchSoapObjects(objectName, props, folder, net);
    if r.res.Ok? && |body| > 0 && Lookup(body, "Status", VNone) != VBool(false) && Truthy(folder) {
      var xs := Iterate(Lookup(body, "Results", VList([]))).value;
      KeepFolderExactly(xs, Str(folder).value);
    }
  }

  /** A record without `CategoryID` reads as being in the folder "None", and is kept when that is the folder asked for. */
  lemma MissingCategoryMatchesNone(xs: seq<Value>, r: Record)
    requires VMap(r) in xs && "CategoryID" !in r
    requires KeepFolder(xs, "None").Ok?
    ensures VMap(r) in KeepFolder(xs, "None").value
  {
    KeepFolderExactly(xs, "None");
    assert FolderText(VMap(r)) == Ok("None");
  }

  /** The record `migrate_soap_objects` creates for `obj`: without `ID`, and moved to the target if it names a folder. */
  function Rewrite(obj: Record, target: Value): (r: Record)
    ensures "ID" !in r
    ensures r.Keys == obj.Keys - {"ID"}
    ensures forall k :: k in r && k != "CategoryID" ==> r[k] == obj[k]
    ensures "CategoryID" in r ==> r["CategoryID"] == target
  {
    var kept := obj - {"ID"};
    if "CategoryID" in kept then kept["CategoryID" := target] else kept
  }

  /** `migrate_soap_objects`: one Create per object, in order; an object that is not a dict raises. */
  function MigrateSoap(objectName: Value, objects: seq<Value>, target: Value, net: Soap): (r: Step<(), Soap>)
    ensures |r.chan.sent| >= |net.sent| && r.chan.sent[..|net.sent|] == net.sent
    decreases |objects|
  {
    if |objects| == 0 then Step(Ok(()), net)
    else if !objects[0].VMap? then Step(Err(AttributeError("items")), net)
    else
      var created := Create(objectName, Rewrite(objects[0].fields, target), net);
      if created.res.Err? then Step(Err(created.res.error), created.chan)
      else MigrateSoap(objectName, objects[1..], target, created.chan)
  }

  /** A completed SOAP migration sent exactly one Create per object, in order, each for the rewritten record. */
  lemma {:induction false} MigrateSoapCreatesEach(objectName: Value, objects: seq<Value>, target: Value, net: Soap)
    ensures var r := MigrateSoap(objectName, objects, target, net);
      r.res.Ok? ==>
        && |r.chan.sent| == |net.sent| + |objects|
        && forall i :: 0 <= i < |objects| ==>
             objects[i].VMap? && r.chan.sent[|net.sent| + i] == CreateCall(objectName, Rewrite(objects[i].fields, target))
    decreases |objects|
  {
    var r := MigrateSoap(objectName, objects, target, net);
    if |objects| > 0 && r.res.Ok? {
      var created := Create(objectName, Rewrite(objects[0].fields, target), net);
      MigrateSoapCreatesEach(objectName, objects[1..], target, created.chan);
      forall i | 1 <= i < |objects|
        ensures objects[i].VMap? && r.chan.sent[|net.sent| + i] == CreateCall(objectName, Rewrite(objects[i].fields, target))
      {
        assert objects[i] == objects[1..][i - 1];
        assert |created.chan.sent| + (i - 1) == |net.sent| + i;
      }
    }
  }

  // ---------------------------------------------------------------------
  // REST: fetch

  const NotDeclared := "fields or endpoint not declared"

  /** The query `fetch_rest_objects` sends, in the order the parameters are set. */
  function FetchParams(definition: Record, fields: Value, folderText: string): Params
  {
    [("$fields", fields), ("$page", VInt(1)), ("$pagesize", VInt(50))]
      + (if Truthy(Lookup(definition, "order_by", VNone)) then [("$order_by", Lookup(definition, "order_by", VNone))] else [])
      + [("$filter", VStr("category.id=" + folderText))]
  }

  /**
   `fetch_rest_objects`: a catalog entry must declare a truthy `endpoint` and
   `fields`; one unpaged GET; a body without `items` has no `OverallStatus`
   and raises; otherwise the page's items.
   */
  function FetchRestObjects(base: string, definition: Record, folder: Value, net: Http): (r: Step<seq<Value>, Http>)
    ensures r.res.Ok? ==> "endpoint" in definition && Truthy(definition["endpoint"]) && "fields" in definition && Truthy(definition["fields"])
    ensures !("endpoint" in definition) ==> r.res == Err(KeyError("endpoint")) && r.chan == net
    ensures "endpoint" in definition && !Truthy(definition["endpoint"]) ==> r.res == Err(Raised(NotDeclared)) && r.chan == net
    ensures |r.chan.sent| <= |net.sent| + 1
    ensures r.res.Ok? ==>
      && Str(folder).Some? && definition["endpoint"].VStr?
      && |net.replies| > 0
      && r.chan.replies == net.replies[1..]
      && ReadPage(net.replies[0]).Ok? && ReadPage(net.replies[0]).value.Items?
      && r.res.value == ReadPage(net.replies[0]).value.items
    ensures var reaches :=
        && "endpoint" in definition && Truthy(definition["endpoint"]) && definition["endpoint"].VStr?
        && "fields" in definition && Truthy(definition["fields"]) && Str(folder).Some?
        && Url(base, definition["endpoint"].s, FetchParams(definition, definition["fields"], Str(folder).value)).Ok?;
      && (reaches ==> r.chan.sent == net.sent + [Request(GET, Url(base, definition["endpoint"].s,
                                                   FetchParams(definition, definition["fields"], Str(folder).value)).value, None)])
      && (!reaches ==> r.res.Err? && r.chan == net)
      && (reaches && |net.replies| > 0 && Readable(net.replies[0]) ==>
            r.res == match ReadPage(net.replies[0]).value
                     case Items(xs, _) => Ok(xs)
                     case Whole(_) => Err(AttributeError("OverallStatus")))
  {
    if "endpoint" !in definition then Step(Err(KeyError("endpoint")), net)
    else if !Truthy(definition["endpoint"]) then Step(Err(Raised(NotDeclared)), net)
    else if "fields" !in definition then Step(Err(KeyError("fields")), net)
    else if !Truthy(definition["fields"]) then Step(Err(Raised(NotDeclared)), net)
    else
      var folderText := StrOf(folder);
      if folderText.Err? then Step(Err(folderText.error), net)
      else
        var ps := FetchParams(definition, definition["fields"], folderText.value);
        var endpoint := definition["endpoint"];
        var q := Query(ps);
        if q.Err? then Step(Err(q.error), net)
        else if !endpoint.VStr? then Step(Err(AttributeError("lstrip")), net)
        else
          var got := Get(base, endpoint.s, ps, false, net);
          if got.res.Err? then Step(Err(got.res.error), got.chan)
          else match got.res.value
            case RawBody(_) => Step(Err(AttributeError("OverallStatus")), got.chan)
            case Collected(xs) => Step(Ok(xs), got.chan)
  }

  /**
   The fetch query asks for `fields`, page 1 of 50 in the folder
   `folderText`, and is ordered exactly when the entry has a truthy
   `order_by`; it carries no other key.
   */
  lemma FetchParamsFirstPage(definition: Record, fields: Value, folderText: string)
    ensures var ps := FetchParams(definition, fields, folderText);
      var order := Lookup(definition, "order_by", VNone);
      && Param(ps, "$fields", VNone) == fields
      && Param(ps, "$page", VNone) == VInt(1)
      && Param(ps, "$pagesize", VNone) == VInt(50)
      && Param(ps, "$filter", VNone) == VStr("category.id=" + folderText)
      && (Param(ps, "$order_by", VNone) != VNone <==> Truthy(order))
      && (Truthy(order) ==> Param(ps, "$order_by", VNone) == order)
      && |ps| == (if Truthy(order) then 5 else 4)
      && forall i :: 0 <= i < |ps| ==> ps[i].0 in {"$fields", "$page", "$pagesize", "$order_by", "$filter"}
  {
    var ps := FetchParams(definition, fields, folderText);
    var order := Lookup(definition, "order_by", VNone);
    ParamFound(ps, 0);
    ParamFound(ps, 1);
    ParamFound(ps, 2);
    ParamFound(ps, |ps| - 1);
    if Truthy(order) {
      ParamFound(ps, 3);
    } else {
      ParamMissing(ps, "$order_by", VNone);
    }
  }

  // ---------------------------------------------------------------------
  // REST: migrate

  const NoUniqueNames := "No unique names found to copy. All items already exist in target folder."

  /** `{item['name'] for item in objs if 'name' in item}`. */
  function NameSet(objs: seq<Value>): Result<set<Value>>
    decreases |objs|
  {
    if |objs| == 0 then Ok({})
    else
      var has :- Contains(objs[0], "name");
      if !has then NameSet(objs[1..])
      else
        var name :- Subscript(objs[0], "name");
        if !Hashable(name) then Err(TypeError)
        else
          var rest :- NameSet(objs[1..]);
          Ok({SetKey(name)} + rest)
  }

  /** The names of the named assets among `objs`, as a Python set holds them. */
  function NamesOf(objs: seq<Value>): set<Value>
  {
    set i | 0 <= i < |objs| && objs[i].VMap? && "name" in objs[i].fields :: SetKey(objs[i].fields["name"])
  }

  /** The name set, when it can be built, holds exactly the names of the named assets. */
  lemma {:induction false} NameSetIsNames(objs: seq<Value>)
    ensures NameSet(objs).Ok? ==> NameSet(objs).value == NamesOf(objs)
    decreases |objs|
  {
    if |objs| > 0 && NameSet(objs).Ok? {
      NameSetIsNames(objs[1..]);
      var tail := objs[1..];
      assert forall i :: 1 <= i < |objs| ==> objs[i] == tail[i - 1];
      var has := Contains(objs[0], "name").value;
      if has {
        assert objs[0].VMap?;
        assert NamesOf(objs) == {SetKey(objs[0].fields["name"])} + NamesOf(tail) by {
          forall v | v in NamesOf(objs) ensures v in {SetKey(objs[0].fields["name"])} + NamesOf(tail) {
            var i :| 0 <= i < |objs| && objs[i].VMap? && "name" in objs[i].fields && v == SetKey(objs[i].fields["name"]);
            if i > 0 {
              assert tail[i - 1] == objs[i];
            }
          }
          forall v | v in NamesOf(tail) ensures v in NamesOf(objs) {
            var i :| 0 <= i < |tail| && tail[i].VMap? && "name" in tail[i].fields && v == SetKey(tail[i].fields["name"]);
            assert objs[i + 1] == tail[i];
          }
        }
      } else {
        assert !(objs[0].VMap? && "name" in objs[0].fields);
        assert NamesOf(objs) == NamesOf(tail) by {
          forall v | v in NamesOf(objs) ensures v in NamesOf(tail) {
            var i :| 0 <= i < |objs| && objs[i].VMap? && "name" in objs[i].fields && v == SetKey(objs[i].fields["name"]);
            assert i > 0;
            assert tail[i - 1] == objs[i];
          }
          forall v | v in NamesOf(tail) ensures v in NamesOf(objs) {
            var i :| 0 <= i < |tail| && tail[i].VMap? && "name" in tail[i].fields && v == SetKey(tail[i].fields["name"]);
            assert objs[i + 1] == tail[i];
          }
        }
      }
    }
  }

  /** The keys an asset of the type named `typeName` carries over beyond its name, type and folder. */
  function ExtraKeys(typeName: Value): set<string>
  {
    if typeName == VStr("templatebasedemail") then {"data", "views"}
    else if typeName in [VStr("layoutblock"), VStr("textblock")] then {"content", "design", "meta", "slots"}
    else if typeName in [VStr("jpg"), VStr("png"), VStr("gif")] then {"file"}
    else {}
  }

  /** The path of an image asset's file. */
  function FilePath(idText: string): string
  {
    "/asset/v1/content/assets/" + idText + "/file"
  }

  /**
   The file of an image asset, fetched with one unpaged GET: the items read
   if there are any, None for no items or a falsy body; a truthy body
   without items has no `Results` and raises.
   */
  function ImageFile(base: string, item: Record, net: Http): (r: Step<Value, Http>)
    ensures |r.chan.sent| >= |net.sent| && r.chan.sent[..|net.sent|] == net.sent
    ensures Posted(r.chan.sent[|net.sent|..]) == []
    ensures r.res.Ok? ==> "id" in item && Str(item["id"]).Some? && |net.replies| > 0 && r.chan.replies == net.replies[1..]
    ensures "id" in item && Str(item["id"]).Some? ==>
      && Url(base, FilePath(Str(item["id"]).value), []).Ok?
      && r.chan.sent == net.sent + [Request(GET, Url(base, FilePath(Str(item["id"]).value), []).value, None)]
    ensures !("id" in item && Str(item["id"]).Some?) ==> r.res.Err? && r.chan == net
    ensures r.res.Ok? ==>
      && ReadPage(net.replies[0]).Ok?
      && match ReadPage(net.replies[0]).value
         case Whole(b) => !Truthy(b) && r.res.value == VNone
         case Items(xs, _) => r.res.value == (if |xs| > 0 then VList(xs) else VNone)
    ensures && "id" in item && Str(item["id"]).Some?
            && |net.replies| > 0 && Succeeded(net.replies[0].status) && ReadPage(net.replies[0]).Ok?
            && !(ReadPage(net.replies[0]).value.Whole? && Truthy(ReadPage(net.replies[0]).value.body))
            ==> r.res.Ok?
  {
    var id := Index(item, "id");
    if id.Err? then Step(Err(id.error), net)
    else
      var idText := StrOf(id.value);
      if idText.Err? then Step(Err(idText.error), net)
      else
        var file := Get(base, FilePath(idText.value), [], false, net);
        GetPostsNothing(base, FilePath(idText.value), [], false, net);
        if file.res.Err? then Step(Err(file.res.error), file.chan)
        else match file.res.value
          case RawBody(b) =>
            if Truthy(b) then Step(Err(AttributeError("Results")), file.chan)
            else Step(Ok(VNone), file.chan)
          case Collected(xs) =>
            Step(Ok(if |xs| > 0 then VList(xs) else VNone), file.chan)
  }

  predicate IsImage(typeName: Value)
  {
    typeName in [VStr("jpg"), VStr("png"), VStr("gif")]
  }

  /** The payload for an asset whose type is named `typeName`, given its image file when it is one. */
  function Payload(item: Record, target: Value, typeName: Value, file: Value): (r: Record)
    requires "name" in item && "assetType" in item
    ensures r.Keys == {"name", "assetType", "category"} + ExtraKeys(typeName)
    ensures r["name"] == item["name"] && r["assetType"] == item["assetType"]
    ensures r["category"] == VMap(map["id" := target])
    ensures forall k :: k in ExtraKeys(typeName) && k != "file" ==> r[k] == Lookup(item, k, VNone)
    ensures IsImage(typeName) ==> r["file"] == file
  {
    var payload := map["name" := item["name"], "assetType" := item["assetType"], "category" := VMap(map["id" := target])];
    if typeName == VStr("templatebasedemail") then
      payload["data" := Lookup(item, "data", VNone)]["views" := Lookup(item, "views", VNone)]
    else if typeName in [VStr("layoutblock"), VStr("textblock")] then
      payload["content" := Lookup(item, "content", VNone)]["design" := Lookup(item, "design", VNone)]
        ["meta" := Lookup(item, "meta", VNone)]["slots" := Lookup(item, "slots", VNone)]
    else if IsImage(typeName) then payload["file" := file]
    else payload
  }

  /**
   The asset `migrate_rest_objects` posts for `item`: its name and type in
   the target folder, plus the fields its type carries over; an image also
   brings its file, fetched with one GET.
   */
  function AssetPayload(base: string, item: Value, target: Value, net: Http): (r: Step<Record, Http>)
    ensures r.res.Ok? ==>
      && item.VMap? && "name" in item.fields && "assetType" in item.fields
      && Subscript(item.fields["assetType"], "name").Ok?
      && (IsImage(item.fields["assetType"].fields["name"]) ==> ImageFile(base, item.fields, net).res.Ok?)
      && r.res.value == Payload(item.fields, target, item.fields["assetType"].fields["name"],
                                if IsImage(item.fields["assetType"].fields["name"]) then ImageFile(base, item.fields, net).res.value else VNone)
    ensures |r.chan.sent| >= |net.sent| && r.chan.sent[..|net.sent|] == net.sent
    ensures Posted(r.chan.sent[|net.sent|..]) == []
  {
    if !item.VMap? then Step(Err(TypeError), net)
    else if "name" !in item.fields then Step(Err(KeyError("name")), net)
    else if "assetType" !in item.fields then Step(Err(KeyError("assetType")), net)
    else
      var typeName := Subscript(item.fields["assetType"], "name");
      if typeName.Err? then Step(Err(typeName.error), net)
      else if !IsImage(typeName.value) then
        Step(Ok(Payload(item.fields, target, typeName.value, VNone)), net)
      else
        var file := ImageFile(base, item.fields, net);
        if file.res.Err? then Step(Err(file.res.error), file.chan)
        else Step(Ok(Payload(item.fields, target, typeName.value, file.res.value)), file.chan)
  }

  /** The assets of `items` the loop posts: those whose name is in `unique`, in order. */
  function Selected(items: seq<Value>, unique: set<Value>): (r: seq<Value>)
    ensures forall x :: x in r ==> x in items
  {
    if |items| == 0 then []
    else
      var x := items[0];
      (if x.VMap? && "name" in x.fields && SetKey(x.fields["name"]) in unique then [x] else []) + Selected(items[1..], unique)
  }

  /**
   `p` is the posted copy of `item` in the folder `target`: the payload its
   asset type calls for, with whatever file the image fetch brought back.
   */
  ghost predicate CopyOf(p: Option<Value>, item: Value, target: Value)
  {
    && item.VMap? && "name" in item.fields && "assetType" in item.fields
    && Subscript(item.fields["assetType"], "name").Ok?
    && exists file :: p == Some(VMap(Payload(item.fields, target, Subscript(item.fields["assetType"], "name").value, file)))
  }

  /** The loop over the source assets: skip those already in the target, post the others. */
  function MigrateLoop(base: string, endpoint: string, items: seq<Value>, unique: set<Value>, target: Value, net: Http): (r: Step<(), Http>)
    ensures |r.chan.sent| >= |net.sent| && r.chan.sent[..|net.sent|] == net.sent
    decreases |items|
  {
    if |items| == 0 then Step(Ok(()), net)
    else
      var name := Subscript(items[0], "name");
      if name.Err? then Step(Err(name.error), net)
      else if !Hashable(name.value) then Step(Err(TypeError), net)
      else if SetKey(name.value) !in unique then MigrateLoop(base, endpoint, items[1..], unique, target, net)
      else
        var payload := AssetPayload(base, items[0], target, net);
        if payload.res.Err? then Step(Err(payload.res.error), payload.chan)
        else
          var post := Post(base, endpoint, VMap(payload.res.value), payload.chan);
          if post.res.Err? then Step(Err(post.res.error), post.chan)
          else MigrateLoop(base, endpoint, items[1..], unique, target, post.chan)
  }

  /**
   `migrate_rest_objects` with `post` as intended: the names in the source
   but not the target are posted, one asset per source item carrying such a
   name; with no such name it raises before any request.
   */
  function MigrateRest(base: string, endpoint: string, sobjects: seq<Value>, dobjects: seq<Value>, target: Value, net: Http): (r: Step<(), Http>)
  {
    var names1 := NameSet(sobjects);
    if names1.Err? then Step(Err(names1.error), net)
    else
      var names2 := NameSet(dobjects);
      if names2.Err? then Step(Err(names2.error), net)
      else
        var unique := names1.value - names2.value;
        if |unique| == 0 then Step(Err(Raised(NoUniqueNames)), net)
        else MigrateLoop(base, endpoint, sobjects, unique, target, net)
  }

  /** `r` completed the loop over `items` from `net`: every item had a name, and a copy of each selected one was posted, in order. */
  ghost predicate Migrated(items: seq<Value>, unique: set<Value>, target: Value, net: Http, r: Step<(), Http>)
  {
    && |r.chan.sent| >= |net.sent|
    && (forall i :: 0 <= i < |items| ==> items[i].VMap? && "name" in items[i].fields)
    && var posted := Posted(r.chan.sent[|net.sent|..]);
       var wanted := Selected(items, unique);
       && |posted| == |wanted|
       && forall i :: 0 <= i < |wanted| ==> CopyOf(posted[i], wanted[i], target)
  }

  lemma MigratedSkip(items: seq<Value>, unique: set<Value>, target: Value, net: Http, r: Step<(), Http>)
    requires |items| > 0 && items[0].VMap? && "name" in items[0].fields && SetKey(items[0].fields["name"]) !in unique
    requires Migrated(items[1..], unique, target, net, r)
    ensures Migrated(items, unique, target, net, r)
  {
    assert Selected(items, unique) == Selected(items[1..], unique);
    forall i | 1 <= i < |items| ensures items[i].VMap? && "name" in items[i].fields {
      assert items[i] == items[1..][i - 1];
    }
  }

  lemma MigratedPost(items: seq<Value>, unique: set<Value>, target: Value, net: Http, mid: Http, payload: Record, after: Http, r: Step<(), Http>)
    requires |items| > 0 && items[0].VMap? && "name" in items[0].fields && SetKey(items[0].fields["name"]) in unique
    requires |mid.sent| >= |net.sent| && Posted(mid.sent[|net.sent|..]) == []
    requires |after.sent| == |mid.sent| + 1 && after.sent[..|mid.sent|] == mid.sent
    requires after.sent[|mid.sent|].verb == POST && after.sent[|mid.sent|].payload == Some(VMap(payload))
    requires CopyOf(Some(VMap(payload)), items[0], target)
    requires |r.chan.sent| >= |after.sent| && r.chan.sent[..|after.sent|] == after.sent
    requires Migrated(items[1..], unique, target, after, r)
    ensures Migrated(items, unique, target, net, r)
  {
    var q := after.sent[|mid.sent|];
    var fetched := mid.sent[|net.sent|..];
    var later := r.chan.sent[|after.sent|..];
    assert r.chan.sent[|net.sent|..] == fetched + [q] + later;
    PostedAppend(fetched + [q], later);
    PostedAppend(fetched, [q]);
    assert Posted([q]) == [Some(VMap(payload))] by {
      assert [q][1..] == [];
    }
    var posted := Posted(r.chan.sent[|net.sent|..]);
    assert posted == [Some(VMap(payload))] + Posted(later);
    assert Selected(items, unique) == [items[0]] + Selected(items[1..], unique);
    CopiesCons(Some(VMap(payload)), Posted(later), items[0], Selected(items[1..], unique), target);
    forall i | 1 <= i < |items| ensures items[i].VMap? && "name" in items[i].fields {
      assert items[i] == items[1..][i - 1];
    }
  }

  /** Posting one more copy in front keeps each posted payload paired with its asset. */
  lemma CopiesCons(p: Option<Value>, posted: seq<Option<Value>>, x: Value, wanted: seq<Value>, target: Value)
    requires CopyOf(p, x, target) && |posted| == |wanted|
    requires forall i :: 0 <= i < |wanted| ==> CopyOf(posted[i], wanted[i], target)
    ensures forall i :: 0 <= i < |wanted| + 1 ==> CopyOf(([p] + posted)[i], ([x] + wanted)[i], target)
  {
    forall i | 0 <= i < |wanted| + 1 ensures CopyOf(([p] + posted)[i], ([x] + wanted)[i], target) {
      if i > 0 {
        assert ([p] + posted)[i] == posted[i - 1] && ([x] + wanted)[i] == wanted[i - 1];
      }
    }
  }

  /** A completed loop posted a copy of each selected asset, in order, and nothing else; every item had a name. */
  lemma {:induction false} MigrateLoopPostsSelected(base: string, endpoint: string, items: seq<Value>, unique: set<Value>, target: Value, net: Http)
    ensures var r := MigrateLoop(base, endpoint, items, unique, target, net);
      r.res.Ok? ==> Migrated(items, unique, target, net, r)
    decreases |items|
  {
    var r := MigrateLoop(base, endpoint, items, unique, target, net);
    if |items| > 0 && r.res.Ok? {
      var x := items[0];
      var tail := items[1..];
      assert x.VMap? && "name" in x.fields;
      var name := x.fields["name"];
      if SetKey(name) !in unique {
        assert r == MigrateLoop(base, endpoint, tail, unique, target, net);
        MigrateLoopPostsSelected(base, endpoint, tail, unique, target, net);
        MigratedSkip(items, unique, target, net, r);
      } else {
        var payload := AssetPayload(base, x, target, net);
        assert payload.res.Ok?;
        var post := Post(base, endpoint, VMap(payload.res.value), payload.chan);
        assert post.res.Ok?;
        assert r == MigrateLoop(base, endpoint, tail, unique, target, post.chan);
        MigrateLoopPostsSelected(base, endpoint, tail, unique, target, post.chan);
        MigratedPost(items, unique, target, net, payload.chan, payload.res.value, post.chan, r);
      }
    }
  }

  /** Every name to copy is carried by some selected asset, and every selected asset carries one. */
  lemma SelectedNames(items: seq<Value>, unique: set<Value>)
    requires unique <= NamesOf(items)
    ensures (set x | x in Selected(items, unique) && x.VMap? && "name" in x.fields :: SetKey(x.fields["name"])) == unique
  {
    SelectedMembers(items, unique);
    var got := set x | x in Selected(items, unique) && x.VMap? && "name" in x.fields :: SetKey(x.fields["name"]);
    forall v | v in unique ensures v in got {
      var i :| 0 <= i < |items| && items[i].VMap? && "name" in items[i].fields && v == SetKey(items[i].fields["name"]);
      assert items[i] in Selected(items, unique);
    }
  }

  lemma {:induction false} SelectedMembers(items: seq<Value>, unique: set<Value>)
    ensures forall x :: x in Selected(items, unique) <==> x in items && x.VMap? && "name" in x.fields && SetKey(x.fields["name"]) in unique
    decreases |items|
  {
    if |items| > 0 {
      SelectedMembers(items[1..], unique);
      assert items == [items[0]] + items[1..];
    }
  }

  /**
   A completed migration posted one copy per source asset whose name is not
   in the target folder, in source order, and together they carry exactly
   the names missing from the target.
   */
  lemma MigrateRestCopiesMissing(base: string, endpoint: string, sobjects: seq<Value>, dobjects: seq<Value>, target: Value, net: Http)
    ensures var r := MigrateRest(base, endpoint, sobjects, dobjects, target, net);
      r.res.Ok? ==>
        var unique := NamesOf(sobjects) - NamesOf(dobjects);
        var posted := Posted(r.chan.sent[|net.sent|..]);
        var wanted := Selected(sobjects, unique);
        && unique != {}
        && |posted| == |wanted|
        && (forall i :: 0 <= i < |wanted| ==> CopyOf(posted[i], wanted[i], target))
        && (set x | x in wanted && x.VMap? && "name" in x.fields :: SetKey(x.fields["name"])) == unique
  {
    var r := MigrateRest(base, endpoint, sobjects, dobjects, target, net);
    if r.res.Ok? {
      NameSetIsNames(sobjects);
      NameSetIsNames(dobjects);
      var unique := NamesOf(sobjects) - NamesOf(dobjects);
      MigrateLoopPostsSelected(base, endpoint, sobjects, unique, target, net);
      assert Migrated(sobjects, unique, target, net, r);
      SelectedNames(sobjects, unique);
    }
  }

  /** Migrating again once every source name is in the target raises before any request. */
  lemma SecondRunCopiesNothing(base: string, endpoint: string, sobjects: seq<Value>, dobjects: seq<Value>, target: Value, net: Http)
    requires NameSet(sobjects).Ok? && NameSet(dobjects).Ok?
    requires NamesOf(sobjects) <= NamesOf(dobjects)
    ensures MigrateRest(base, endpoint, sobjects, dobjects, target, net) == Step(Err(Raised(NoUniqueNames)), net)
  {
    NameSetIsNames(sobjects);
    NameSetIsNames(dobjects);
    assert NamesOf(sobjects) - NamesOf(dobjects) == {};
  }

  /** Source {A, B} and target {B}: only A is posted. */
  lemma OnlyMissingNameIsPosted(base: string, endpoint: string, a: Record, b: Record, target: Value, reply: Reply, sent: seq<Request>)
    requires a == map["name" := VStr("A"), "assetType" := VMap(map["name" := VStr("htmlblock")])]
    requires b == map["name" := VStr("B"), "assetType" := VMap(map["name" := VStr("htmlblock")])]
    requires Succeeded(reply.status) && reply.body.Json?
    ensures var r := MigrateRest(base, endpoint, [VMap(a), VMap(b)], [VMap(b)], target, Channel([reply], sent));
      && r.res.Ok?
      && r.chan.sent == sent + [Request(POST, base + endpoint, Some(VMap(map[
           "name" := VStr("A"),
           "assetType" := VMap(map["name" := VStr("htmlblock")]),
           "category" := VMap(map["id" := target])])))]
  {
    var net := Channel([reply], sent);
    var dst := [VMap(b)];
    assert SetKey(VStr("A")) == VStr("A") && SetKey(VStr("B")) == VStr("B");
    assert NameSet(dst).Ok? && NameSet(dst).value == {VStr("B")} by {
      assert dst[1..] == [];
      assert Contains(dst[0], "name") == Ok(true);
      assert Subscript(dst[0], "name") == Ok(VStr("B"));
      assert NameSet(dst[1..]) == Ok({});
    }
    var src := [VMap(a), VMap(b)];
    assert NameSet(src).Ok? && NameSet(src).value == {VStr("A"), VStr("B")} by {
      assert src[1..] == dst;
      assert Contains(src[0], "name") == Ok(true);
      assert Subscript(src[0], "name") == Ok(VStr("A"));
    }
    var unique := {VStr("A"), VStr("B")} - {VStr("B")};
    assert unique == {VStr("A")};
    var payload := map["name" := VStr("A"), "assetType" := VMap(map["name" := VStr("htmlblock")]), "category" := VMap(map["id" := target])];
    assert AssetPayload(base, VMap(a), target, net) == Step(Ok(payload), net);
    var post := Post(base, endpoint, VMap(payload), net);
    assert post.chan == Channel([], sent + [Request(POST, base + endpoint, Some(VMap(payload)))]);
    assert [VMap(a), VMap(b)][1..] == [VMap(b)];
    assert [VMap(b)][1..] == [];
    assert MigrateLoop(base, endpoint, [VMap(b)], unique, target, post.chan) == Step(Ok(()), post.chan);
  }

  /** Source named True and target named 1: Python's set difference is empty, so nothing is copied. */
  lemma BoolNameMatchesInt(base: string, endpoint: string, target: Value, net: Http)
    ensures var src := [VMap(map["name" := VBool(true)])];
      var dst := [VMap(map["name" := VInt(1)])];
      MigrateRest(base, endpoint, src, dst, target, net) == Step(Err(Raised(NoUniqueNames)), net)
  {
    var src := [VMap(map["name" := VBool(true)])];
    var dst := [VMap(map["name" := VInt(1)])];
    assert src[1..] == [] && dst[1..] == [];
    assert Contains(src[0], "name") == Ok(true) && Subscript(src[0], "name") == Ok(VBool(true));
    assert Contains(dst[0], "name") == Ok(true) && Subscript(dst[0], "name") == Ok(VInt(1));
    assert NameSet(src[1..]) == Ok({}) && NameSet(dst[1..]) == Ok({});
    assert NameSet(src) == Ok({SetKey(VBool(true))}) && SetKey(VBool(true)) == VInt(1);
    assert NameSet(dst) == Ok({SetKey(VInt(1))}) && SetKey(VInt(1)) == VInt(1);
  }
}

=== FILE: net.dfy ===
/**
 Servers as oracles. A server is the finite sequence of replies it will still
 give, in order, together with the log of requests sent to it so far; every
 request consumes one reply, and a server with no reply left is a failed
 connection.
 */
module Net {
  import opened Base
  import opened Values

  datatype Channel<Q, P> = Channel(replies: seq<P>, sent: seq<Q>)

  /** The result of an operation together with the server afterwards. */
  datatype Step<T, C> = Step(res: Result<T>, chan: C)

  /** Sends `q` and takes the next reply, None when the server has none left. */
  function Exchange<Q, P>(c: Channel<Q, P>, q: Q): (Option<P>, Channel<Q, P>)
  {
    if |c.replies| == 0 then (None, Channel([], c.sent + [q]))
    else (Some(c.replies[0]), Channel(c.replies[1..], c.sent + [q]))
  }

  // ---------------------------------------------------------------------
  // HTTP: the authentication endpoint and the REST service

  datatype Verb = GET | POST | PATCH | PUT | DELETE

  datatype Request = Request(verb: Verb, url: string, payload: Option<Value>)

  /** A decoded body: a JSON value, or text that `response.json()` cannot decode. */
  datatype Body = Json(value: Value) | NotJson

  datatype Reply = Reply(status: int, body: Body)

  type Http = Channel<Request, Reply>

  /** `raise_for_status()` passes unless the status is a client (4xx) or server (5xx) error. */
  predicate Succeeded(status: int)
  {
    !(400 <= status < 600)
  }

  /** `requests.<verb>(...)` followed by `raise_for_status()`. */
  function Call(net: Http, q: Request): (r: (Result<Reply>, Http))
    ensures r.1.sent == net.sent + [q]
    ensures r.0.Ok? <==> |net.replies| > 0 && Succeeded(net.replies[0].status)
    ensures r.0.Ok? ==> r.0.value == net.replies[0] && r.1.replies == net.replies[1..]
  {
    var (reply, net') := Exchange(net, q);
    if reply.None? then (Err(ConnectionError), net')
    else if !Succeeded(reply.value.status) then (Err(HttpError(reply.value.status)), net')
    else (Ok(reply.value), net')
  }

  /** The payloads of the POST requests in `log`, in the order they were sent. */
  function Posted(log: seq<Request>): seq<Option<Value>>
  {
    if |log| == 0 then []
    else (if log[0].verb == POST then [log[0].payload] else []) + Posted(log[1..])
  }

  lemma PostedAppend(a: seq<Request>, b: seq<Request>)
    ensures Posted(a + b) == Posted(a) + Posted(b)
  {
    if |a| > 0 {
      PostedAppend(a[1..], b);
      assert (a + b)[1..] == a[1..] + b;
    } else {
      assert a + b == b;
    }
  }

  /** `response.json()`. */
  function Decode(b: Body): Result<Value>
  {
    match b
    case Json(v) => Ok(v)
    case NotJson => Err(JsonDecodeError)
  }
}

=== FILE: rest_client.dfy ===
/**
 The REST side of the client (`ET_Client.get`, `post`, `patch`, `put`,
 `delete_rest` and `copy`). The REST service is an HTTP oracle. `get` builds
 its URL from the instance base, the resource path with its leading slashes
 stripped, and a query rendered from the parameters in insertion order; with
 `morerow` it keeps asking for the next `$page` while pages carry items and a
 `count`.
 */
module RestClient {
  import opened Base
  import opened Text
  import opened Values
  import opened Net

  /** Query parameters in insertion order, as a Python dict keeps them. */
  type Params = seq<(string, Value)>

  /** `params.get(k, default)`. */
  function Param(ps: Params, k: string, default: Value): Value
  {
    if |ps| == 0 then default
    else if ps[0].0 == k then ps[0].1
    else Param(ps[1..], k, default)
  }

  /** `params[k] = v`: an existing key keeps its place, a new key goes last. */
  function SetParam(ps: Params, k: string, v: Value): (r: Params)
    ensures |r| == |ps| || |r| == |ps| + 1
  {
    if |ps| == 0 then [(k, v)]
    else if ps[0].0 == k then [(k, v)] + ps[1..]
    else [ps[0]] + SetParam(ps[1..], k, v)
  }

  lemma {:induction false} ParamAfterSet(ps: Params, k: string, v: Value, default: Value)
    ensures Param(SetParam(ps, k, v), k, default) == v
    decreases |ps|
  {
    if |ps| > 0 && ps[0].0 != k {
      ParamAfterSet(ps[1..], k, v, default);
    }
  }

  lemma {:induction false} ParamOtherAfterSet(ps: Params, k: string, v: Value, j: string, default: Value)
    requires j != k
    ensures Param(SetParam(ps, k, v), j, default) == Param(ps, j, default)
    decreases |ps|
  {
    if |ps| > 0 && ps[0].0 != k {
      ParamOtherAfterSet(ps[1..], k, v, j, default);
    }
  }

  lemma {:induction false} SetParamTwice(ps: Params, k: string, v: Value, w: Value)
    ensures SetParam(SetParam(ps, k, v), k, w) == SetParam(ps, k, w)
    decreases |ps|
  {
    if |ps| > 0 && ps[0].0 != k {
      SetParamTwice(ps[1..], k, v, w);
    }
  }

  /** A key that occurs once in a parameter list is looked up to its value. */
  lemma {:induction false} ParamFound(ps: Params, i: nat)
    requires i < |ps|
    requires forall j :: 0 <= j < |ps| && j != i ==> ps[j].0 != ps[i].0
    ensures Param(ps, ps[i].0, VNone) == ps[i].1
    decreases i
  {
    if i > 0 {
      assert ps[0].0 != ps[i].0;
      forall j | 0 <= j < |ps[1..]| && j != i - 1 ensures ps[1..][j].0 != ps[1..][i - 1].0 {
        assert ps[1..][j] == ps[j + 1];
      }
      ParamFound(ps[1..], i - 1);
    }
  }

  /** A key that no entry carries is looked up to the default. */
  lemma {:induction false} ParamMissing(ps: Params, k: string, default: Value)
    requires forall j :: 0 <= j < |ps| ==> ps[j].0 != k
    ensures Param(ps, k, default) == default
    decreases |ps|
  {
    if |ps| > 0 {
      assert forall j :: 0 <= j < |ps[1..]| ==> ps[1..][j] == ps[j + 1];
      ParamMissing(ps[1..], k, default);
    }
  }

  /** The text of one parameter value: a list is comma-joined and must hold only strings, anything else is `str()`. */
  function Render(v: Value): Result<string>
  {
    if v.VList? then
      var texts :- Texts(v.items);
      Ok(Join(",", texts))
    else StrOf(v)
  }

  /** The strings of a list that `",".join` accepts: every item must be a string. */
  function Texts(items: seq<Value>): Result<seq<string>>
  {
    if |items| == 0 then Ok([])
    else if !items[0].VStr? then Err(TypeError)
    else
      var rest :- Texts(items[1..]);
      Ok([items[0].s] + rest)
  }

  /** `",".join` accepts exactly the lists of strings, and keeps them in order. */
  lemma {:induction false} TextsOfStrings(items: seq<Value>)
    ensures Texts(items).Ok? <==> forall i :: 0 <= i < |items| ==> items[i].VStr?
    ensures Texts(items).Ok? ==> |Texts(items).value| == |items|
    ensures Texts(items).Ok? ==> forall i :: 0 <= i < |items| ==> Texts(items).value[i] == items[i].s
    decreases |items|
  {
    if |items| > 0 {
      TextsOfStrings(items[1..]);
      if items[0].VStr? && Texts(items[1..]).Err? {
        var i :| 0 <= i < |items[1..]| && !items[1..][i].VStr?;
        assert items[i + 1] == items[1..][i];
      } else if items[0].VStr? {
        forall i | 1 <= i < |items| ensures items[i].VStr? {
          assert items[i] == items[1..][i - 1];
        }
      }
    }
  }

  /** Every parameter with its value rendered, keys and values as text. */
  function RenderAll(ps: Params): Result<seq<(string, string)>>
  {
    if |ps| == 0 then Ok([])
    else
      var v :- Render(ps[0].1);
      var rest :- RenderAll(ps[1..]);
      Ok([(ps[0].0, v)] + rest)
  }

  /** Rendering succeeds exactly when every value renders, and keeps each key with its value's text, in order. */
  lemma {:induction false} RenderAllPairs(ps: Params)
    ensures RenderAll(ps).Ok? <==> forall i :: 0 <= i < |ps| ==> Render(ps[i].1).Ok?
    ensures RenderAll(ps).Ok? ==> |RenderAll(ps).value| == |ps|
    ensures RenderAll(ps).Ok? ==> forall i :: 0 <= i < |ps| ==>
      RenderAll(ps).value[i].0 == ps[i].0 && Render(ps[i].1) == Ok(RenderAll(ps).value[i].1)
    decreases |ps|
  {
    if |ps| > 0 {
      RenderAllPairs(ps[1..]);
      if !Render(ps[0].1).Ok? {
        assert !(forall i :: 0 <= i < |ps| ==> Render(ps[i].1).Ok?);
      } else if RenderAll(ps[1..]).Err? {
        var i :| 0 <= i < |ps[1..]| && !Render(ps[1..][i].1).Ok?;
        assert ps[1..][i] == ps[i + 1];
      } else {
        forall i | 1 <= i < |ps| ensures Render(ps[i].1).Ok? {
          assert ps[i] == ps[1..][i - 1];
        }
      }
    }
  }

  function Pair(kv: (string, string)): string
  {
    kv.0 + "=" + kv.1
  }

  /** Each rendered parameter as `k=v`. */
  function Pairs(kvs: seq<(string, string)>): seq<string>
  {
    if |kvs| == 0 then [] else [Pair(kvs[0])] + Pairs(kvs[1..])
  }

  lemma {:induction false} PairsAt(kvs: seq<(string, string)>)
    ensures |Pairs(kvs)| == |kvs|
    ensures forall i :: 0 <= i < |kvs| ==> Pairs(kvs)[i] == Pair(kvs[i])
    decreases |kvs|
  {
    if |kvs| > 0 {
      PairsAt(kvs[1..]);
      forall i | 1 <= i < |kvs| ensures Pairs(kvs)[i] == Pair(kvs[i]) {
        assert kvs[i] == kvs[1..][i - 1];
      }
    }
  }

  /** The query string: `k=v` pairs joined with `&`. */
  function Query(ps: Params): Result<string>
  {
    var kvs :- RenderAll(ps);
    Ok(Join("&", Pairs(kvs)))
  }

  /** The URL of one GET: the base, one slash, the path without its leading slashes, and the query. */
  function Url(base: string, path: string, ps: Params): Result<string>
  {
    var q :- Query(ps);
    Ok(base + "/" + LStripSlash(path) + "?" + q)
  }

  /** Where a GET goes for given parameters. */
  type UrlFor = Params -> Result<string>

  /** The URLs of the GETs on one resource path. */
  function Urls(base: string, path: string): UrlFor
  {
    ps => Url(base, path, ps)
  }

  /** Reading a query string back: split on `&`, then each pair on `=`. */
  function ParseQuery(q: string): seq<seq<string>>
  {
    var parts := Split(q, '&');
    seq(|parts|, i requires 0 <= i < |parts| => Split(parts[i], '='))
  }

  /**
   The query string round-trips: provided no key or rendered value contains
   `&` or `=`, reading the query back yields each key with its rendered value,
   in insertion order.
   */
  lemma QueryRoundTrip(ps: Params)
    requires |ps| >= 1
    requires forall i :: 0 <= i < |ps| ==> '&' !in ps[i].0 && '=' !in ps[i].0
    requires forall i :: 0 <= i < |ps| ==> Render(ps[i].1).Ok? && '&' !in Render(ps[i].1).value && '=' !in Render(ps[i].1).value
    ensures RenderAll(ps).Ok? && Query(ps).Ok?
    ensures var kvs := RenderAll(ps).value;
      ParseQuery(Query(ps).value) == seq(|kvs|, i requires 0 <= i < |kvs| => [kvs[i].0, kvs[i].1])
  {
    RenderAllPairs(ps);
    var kvs := RenderAll(ps).value;
    var pairs := Pairs(kvs);
    PairsAt(kvs);
    assert "&" == ['&'];
    assert "=" == ['='];
    forall i | 0 <= i < |pairs| ensures '&' !in pairs[i] && Split(pairs[i], '=') == [kvs[i].0, kvs[i].1] {
      assert Join("=", [kvs[i].0, kvs[i].1]) == pairs[i];
      SplitJoin([kvs[i].0, kvs[i].1], '=');
    }
    SplitJoin(pairs, '&');
  }

  // ---------------------------------------------------------------------
  // GET and its pagination

  /** What `get` hands back: a body without `items` as it came, or the items of every page read. */
  datatype GetResult = RawBody(body: Value) | Collected(results: seq<Value>)

  /** How the loop sees one decoded page: no `items` key, or its items and whether it has a `count`. */
  datatype Page = Whole(body: Value) | Items(items: seq<Value>, hasCount: bool)

  /**
   Reads a successful reply: the body must be JSON; `'items' in data` must be
   defined; a body with items must be a dict whose `items` can be iterated.
   */
  function ReadPage(reply: Reply): Result<Page>
  {
    var data :- Decode(reply.body);
    var has :- Contains(data, "items");
    if !has then Ok(Whole(data))
    else if !data.VMap? then Err(TypeError)
    else
      var items :- Iterate(data.fields["items"]);
      Ok(Items(items, "count" in data.fields))
  }

  /** The loop asks for another page after `page`. */
  predicate MorePages(page: Page, morerow: bool)
  {
    morerow && page.Items? && page.hasCount && |page.items| > 0
  }

  /** `int(params.get('$page', 1))`, the page number the first request stands for. */
  function StartPage(ps: Params): Result<int>
  {
    IntOf(Param(ps, "$page", VInt(1)))
  }

  function GetLoop(url: UrlFor, ps: Params, morerow: bool, acc: seq<Value>, net: Http): (r: Step<GetResult, Http>)
    ensures |r.chan.sent| >= |net.sent| && r.chan.sent[..|net.sent|] == net.sent
    decreases |net.replies|
  {
    var u := url(ps);
    if u.Err? then Step(Err(u.error), net)
    else
      var (reply, net1) := Call(net, Request(GET, u.value, None));
      if reply.Err? then Step(Err(reply.error), net1)
      else
        var page := ReadPage(reply.value);
        if page.Err? then Step(Err(page.error), net1)
        else if page.value.Whole? then Step(Ok(RawBody(page.value.body)), net1)
        else if !MorePages(page.value, morerow) then Step(Ok(Collected(acc + page.value.items)), net1)
        else
          var n := IntOf(Param(ps, "$page", VInt(1)));
          if n.Err? then Step(Err(n.error), net1)
          else GetLoop(url, SetParam(ps, "$page", VStr(IntToString(n.value + 1))), morerow, acc + page.value.items, net1)
  }

  /**
   `get(resourcepath, parameters, morerow)`. Without `morerow` exactly one
   request is made, and a page with items yields just those items.
   */
  function Get(base: string, path: string, ps: Params, morerow: bool, net: Http): (r: Step<GetResult, Http>)
    ensures Url(base, path, ps).Err? ==> r == Step(Err(Url(base, path, ps).error), net)
    ensures !morerow && Url(base, path, ps).Ok? ==> r.chan.sent == net.sent + [Request(GET, Url(base, path, ps).value, None)]
    ensures !morerow && r.res.Ok? ==>
      && |net.replies| > 0
      && r.chan.replies == net.replies[1..]
      && ReadPage(net.replies[0]).Ok?
      && r.res.value == (match ReadPage(net.replies[0]).value
                         case Whole(b) => RawBody(b)
                         case Items(xs, _) => Collected(xs))
  {
    SinglePage(Urls(base, path), ps, morerow, net);
    GetLoop(Urls(base, path), ps, morerow, [], net)
  }

  /** Without `morerow` the loop makes one request and stops after the first page. */
  lemma SinglePage(url: UrlFor, ps: Params, morerow: bool, net: Http)
    ensures var r := GetLoop(url, ps, morerow, [], net);
      !morerow ==>
      && (url(ps).Ok? ==> r.chan.sent == net.sent + [Request(GET, url(ps).value, None)])
      && (r.res.Ok? ==>
            && |net.replies| > 0
            && r.chan.replies == net.replies[1..]
            && ReadPage(net.replies[0]).Ok?
            && r.res.value == (match ReadPage(net.replies[0]).value
                               case Whole(b) => RawBody(b)
                               case Items(xs, _) => Collected(xs)))
  {
    if !morerow && |net.replies| > 0 && ReadPage(net.replies[0]).Ok? && ReadPage(net.replies[0]).value.Items? {
      var xs := ReadPage(net.replies[0]).value.items;
      assert [] + xs == xs;
    }
  }

  // A reference account of a whole pagination run, read off the replies.

  /** The parameters of the `i`-th request of a run that started from `ps`. */
  function PageParams(ps: Params, i: nat): Params
    requires i == 0 || StartPage(ps).Ok?
  {
    if i == 0 then ps else SetParam(ps, "$page", VStr(IntToString(StartPage(ps).value + i)))
  }

  predicate Readable(reply: Reply)
  {
    Succeeded(reply.status) && ReadPage(reply).Ok?
  }

  /** The replies of a run of `get`: all readable, and each asks for more exactly when it is not the last. */
  predicate PageChain(pages: seq<Reply>, morerow: bool)
    decreases |pages|
  {
    && |pages| >= 1
    && Readable(pages[0])
    && (MorePages(ReadPage(pages[0]).value, morerow) <==> |pages| >= 2)
    && (|pages| >= 2 ==> PageChain(pages[1..], morerow))
  }

  /** The items of every page read, in order. */
  function Harvest(pages: seq<Reply>): seq<Value>
    decreases |pages|
  {
    if |pages| == 0 then []
    else
      var items := match ReadPage(pages[0]) case Ok(Items(xs, _)) => xs case _ => [];
      items + Harvest(pages[1..])
  }

  /** What a run over `pages` returns: the last body if it has no items, otherwise every item read. */
  function Outcome(acc: seq<Value>, pages: seq<Reply>): GetResult
    requires |pages| >= 1
  {
    match ReadPage(pages[|pages| - 1])
    case Ok(Whole(body)) => RawBody(body)
    case _ => Collected(acc + Harvest(pages))
  }

  /** `q` is the request for the `n`-th page of a run that started from `ps`. */
  predicate PageRequest(url: UrlFor, ps: Params, n: nat, q: Request)
  {
    && (n == 0 || StartPage(ps).Ok?)
    && url(PageParams(ps, n)).Ok?
    && q == Request(GET, url(PageParams(ps, n)).value, None)
  }

  /** `log` holds the requests for the pages of a run from its `i`-th on, one per page. */
  predicate PageRequests(url: UrlFor, ps: Params, i: nat, log: seq<Request>)
    decreases |log|
  {
    |log| == 0 || (PageRequest(url, ps, i, log[0]) && PageRequests(url, ps, i + 1, log[1..]))
  }

  /** The `j`-th request of such a log asks for page `i + j`. */
  lemma {:induction false} PageRequestsAt(url: UrlFor, ps: Params, i: nat, log: seq<Request>, j: nat)
    requires PageRequests(url, ps, i, log)
    requires j < |log|
    ensures PageRequest(url, ps, i + j, log[j])
    decreases j
  {
    if j > 0 {
      PageRequestsAt(url, ps, i + 1, log[1..], j - 1);
    }
  }

  /** Every request of a run that started from `ps` has a URL. */
  ghost predicate PagesLinked(url: UrlFor, ps: Params)
  {
    forall n: nat | n == 0 || StartPage(ps).Ok? :: url(PageParams(ps, n)).Ok?
  }

  /** A run of `k` pages is what the server holds for a `get` starting from `ps`. */
  predicate GetChain(base: string, path: string, ps: Params, morerow: bool, net: Http, k: nat)
  {
    && 1 <= k <= |net.replies|
    && PageChain(net.replies[..k], morerow)
    && (k >= 2 ==> StartPage(ps).Ok?)
    && Url(base, path, ps).Ok?
  }

  lemma OutcomeOne(acc: seq<Value>, p: Reply)
    requires Readable(p)
    ensures var page := ReadPage(p).value;
      Outcome(acc, [p]) == if page.Whole? then RawBody(page.body) else Collected(acc + page.items)
  {
    var page := ReadPage(p).value;
    assert [p][1..] == [];
    if page.Items? {
      assert Harvest([p]) == page.items + Harvest([]);
    }
  }

  lemma OutcomeStep(acc: seq<Value>, pages: seq<Reply>)
    requires |pages| >= 2
    requires Readable(pages[0]) && ReadPage(pages[0]).value.Items?
    ensures Outcome(acc, pages) == Outcome(acc + ReadPage(pages[0]).value.items, pages[1..])
  {
    var xs := ReadPage(pages[0]).value.items;
    assert pages[1..][|pages| - 2] == pages[|pages| - 1];
    assert Harvest(pages) == xs + Harvest(pages[1..]);
    assert acc + Harvest(pages) == (acc + xs) + Harvest(pages[1..]);
  }

  /** Changing `$page` to a string keeps the URL renderable. */
  lemma {:induction false} RenderAllSetPage(ps: Params, s: string)
    requires RenderAll(ps).Ok?
    ensures RenderAll(SetParam(ps, "$page", VStr(s))).Ok?
    decreases |ps|
  {
    var r := SetParam(ps, "$page", VStr(s));
    if |ps| == 0 {
      assert r == [("$page", VStr(s))];
    } else if ps[0].0 == "$page" {
      assert r[1..] == ps[1..];
    } else {
      RenderAllSetPage(ps[1..], s);
      assert r[1..] == SetParam(ps[1..], "$page", VStr(s));
    }
  }

  lemma UrlOfPage(base: string, path: string, ps: Params, i: nat)
    requires Url(base, path, ps).Ok?
    requires i == 0 || StartPage(ps).Ok?
    ensures Url(base, path, PageParams(ps, i)).Ok?
  {
    if i >= 1 {
      RenderAllSetPage(ps, IntToString(StartPage(ps).value + i));
    }
  }


  /** Setting `$page` never breaks a URL. */
  lemma PagesHaveUrls(base: string, path: string, ps: Params)
    requires Url(base, path, ps).Ok?
    ensures PagesLinked(Urls(base, path), ps)
  {
    forall n: nat | n == 0 || StartPage(ps).Ok? ensures Urls(base, path)(PageParams(ps, n)).Ok? {
      UrlOfPage(base, path, ps, n);
    }
  }

  lemma ChainTail(pages: seq<Reply>, morerow: bool)
    requires PageChain(pages, morerow)
    requires MorePages(ReadPage(pages[0]).value, morerow)
    ensures |pages| >= 2 && PageChain(pages[1..], morerow)
  {
  }

  lemma ChainCons(p: Reply, pages: seq<Reply>, morerow: bool)
    requires Readable(p) && MorePages(ReadPage(p).value, morerow)
    requires PageChain(pages, morerow)
    ensures PageChain([p] + pages, morerow)
  {
    assert ([p] + pages)[1..] == pages;
  }

  lemma RepliesPrefix(replies: seq<Reply>, k: nat)
    requires 1 <= k <= |replies|
    ensures replies[..k] == [replies[0]] + replies[1..][..k - 1]
    ensures replies[1..][k - 1..] == replies[k..]
  {
  }

  /** `r` is what the loop returns after reading the first `k` replies in `net` as a run of pages, with `acc` already collected. */
  predicate Run(morerow: bool, acc: seq<Value>, net: Http, r: Step<GetResult, Http>, k: nat)
  {
    && 1 <= k <= |net.replies|
    && r.chan.replies == net.replies[k..]
    && PageChain(net.replies[..k], morerow)
    && r.res == Ok(Outcome(acc, net.replies[..k]))
    && |r.chan.sent| == |net.sent| + k
    && r.chan.sent[..|net.sent|] == net.sent
  }

  /**
   The loop asks for another page after the first reply in `net`: the reply
   reads as a page that asks for more, and `$page` reads as a number.
   */
  predicate AsksAgain(ps: Params, morerow: bool, net: Http)
  {
    && |net.replies| > 0
    && Readable(net.replies[0])
    && MorePages(ReadPage(net.replies[0]).value, morerow)
    && StartPage(ps).Ok?
  }

  /** The parameters of the request after the one made with `ps`: `$page` one higher. */
  function NextParams(ps: Params): Params
    requires StartPage(ps).Ok?
  {
    SetParam(ps, "$page", VStr(IntToString(StartPage(ps).value + 1)))
  }

  /** Without a URL the loop fails at once and sends nothing. */
  lemma LoopNoUrl(url: UrlFor, ps: Params, morerow: bool, acc: seq<Value>, net: Http)
    requires url(ps).Err?
    ensures GetLoop(url, ps, morerow, acc, net) == Step(Err(url(ps).error), net)
  {
  }

  /** A turn after which the loop asks again: one GET of the URL, then the loop from the next parameters. */
  lemma LoopAgain(url: UrlFor, ps: Params, morerow: bool, acc: seq<Value>, net: Http)
    requires url(ps).Ok? && AsksAgain(ps, morerow, net)
    ensures var q := Request(GET, url(ps).value, None);
      var net1 := Channel(net.replies[1..], net.sent + [q]);
      var r := GetLoop(url, ps, morerow, acc, net);
      && r == GetLoop(url, NextParams(ps), morerow, acc + ReadPage(net.replies[0]).value.items, net1)
      && |r.chan.sent| > |net.sent| && r.chan.sent[|net.sent|] == q
  {
    var q := Request(GET, url(ps).value, None);
    var net1 := Channel(net.replies[1..], net.sent + [q]);
    assert Call(net, q) == (Ok(net.replies[0]), net1);
    var r := GetLoop(url, NextParams(ps), morerow, acc + ReadPage(net.replies[0]).value.items, net1);
    assert r.chan.sent[..|net1.sent|] == net1.sent;
    assert r.chan.sent[|net.sent|] == net1.sent[|net.sent|];
  }

  /** A turn after which the loop stops: one GET of the URL, and a result read off the first reply alone. */
  lemma LoopStops(url: UrlFor, ps: Params, morerow: bool, acc: seq<Value>, net: Http)
    requires url(ps).Ok? && !AsksAgain(ps, morerow, net)
    ensures var q := Request(GET, url(ps).value, None);
      var r := GetLoop(url, ps, morerow, acc, net);
      && r.chan.sent == net.sent + [q]
      && (r.res.Ok? <==> |net.replies| > 0 && Readable(net.replies[0]) && !MorePages(ReadPage(net.replies[0]).value, morerow))
      && (r.res.Ok? ==>
            var page := ReadPage(net.replies[0]).value;
            && r.chan.replies == net.replies[1..]
            && r.res.value == if page.Whole? then RawBody(page.body) else Collected(acc + page.items))
  {
    var q := Request(GET, url(ps).value, None);
    if |net.replies| > 0 && Succeeded(net.replies[0].status) {
      assert Call(net, q) == (Ok(net.replies[0]), Channel(net.replies[1..], net.sent + [q]));
    }
  }

  /** The first reply, when it is the last page, is a run of one page. */
  lemma RunOne(morerow: bool, acc: seq<Value>, net: Http, r: Step<GetResult, Http>, q: Request)
    requires |net.replies| > 0 && Readable(net.replies[0])
    requires !MorePages(ReadPage(net.replies[0]).value, morerow)
    requires r.chan.sent == net.sent + [q] && r.chan.replies == net.replies[1..]
    requires var page := ReadPage(net.replies[0]).value;
      r.res == Ok(if page.Whole? then RawBody(page.body) else Collected(acc + page.items))
    ensures Run(morerow, acc, net, r, 1)
  {
    OutcomeOne(acc, net.replies[0]);
    assert net.replies[..1] == [net.replies[0]];
    assert PageChain(net.replies[..1], morerow);
    assert r.chan.sent[..|net.sent|] == net.sent;
  }

  /** A run after a first page that asks for more, with that page's request sent, is a run one page longer. */
  lemma RunCons(morerow: bool, acc: seq<Value>, net: Http, r: Step<GetResult, Http>, q: Request, k: nat)
    requires |net.replies| > 0 && Readable(net.replies[0])
    requires MorePages(ReadPage(net.replies[0]).value, morerow)
    requires Run(morerow, acc + ReadPage(net.replies[0]).value.items, Channel(net.replies[1..], net.sent + [q]), r, k)
    ensures Run(morerow, acc, net, r, k + 1)
  {
    var net1 := Channel(net.replies[1..], net.sent + [q]);
    RepliesPrefix(net.replies, k + 1);
    ChainCons(net.replies[0], net1.replies[..k], morerow);
    assert net.replies[..k + 1] == [net.replies[0]] + net1.replies[..k];
    OutcomeStep(acc, net.replies[..k + 1]);
    assert net.replies[..k + 1][1..] == net1.replies[..k];
    assert r.chan.sent[..|net.sent|] == r.chan.sent[..|net1.sent|][..|net.sent|];
  }

  /**
   `r` is what the loop returns after `k` turns on the replies in `net`, told
   turn by turn: each turn reads the next reply as a page and sends one
   request; every turn but the last asks for more, and the last one's page
   decides the result.
   */
  predicate Ran(morerow: bool, acc: seq<Value>, net: Http, r: Step<GetResult, Http>, k: nat)
    decreases k
  {
    && 1 <= k <= |net.replies|
    && Readable(net.replies[0])
    && |r.chan.sent| > |net.sent|
    && var page := ReadPage(net.replies[0]).value;
       var q := r.chan.sent[|net.sent|];
       if k == 1 then
         && !MorePages(page, morerow)
         && r.chan.sent == net.sent + [q]
         && r.chan.replies == net.replies[1..]
         && r.res == Ok(if page.Whole? then RawBody(page.body) else Collected(acc + page.items))
       else
         && MorePages(page, morerow)
         && Ran(morerow, acc + page.items, Channel(net.replies[1..], net.sent + [q]), r, k - 1)
  }

  /** A run told turn by turn is a page chain with the closed-form outcome. */
  lemma {:induction false} RanRun(morerow: bool, acc: seq<Value>, net: Http, r: Step<GetResult, Http>, k: nat)
    requires Ran(morerow, acc, net, r, k)
    ensures Run(morerow, acc, net, r, k)
    decreases k
  {
    var q := r.chan.sent[|net.sent|];
    if k == 1 {
      RunOne(morerow, acc, net, r, q);
    } else {
      var page := ReadPage(net.replies[0]).value;
      RanRun(morerow, acc + page.items, Channel(net.replies[1..], net.sent + [q]), r, k - 1);
      RunCons(morerow, acc, net, r, q, k - 1);
    }
  }

  /**
   Soundness of the loop: a successful run consumed `k` replies forming a
   page chain, sent one request per page, and returned what the chain
   determines.
   */
  lemma {:induction false} LoopSound(url: UrlFor, ps: Params, morerow: bool, acc: seq<Value>, net: Http)
    ensures var r := GetLoop(url, ps, morerow, acc, net);
      r.res.Ok? ==> |r.chan.replies| < |net.replies| && Ran(morerow, acc, net, r, |net.replies| - |r.chan.replies|)
    decreases |net.replies|
  {
    var r := GetLoop(url, ps, morerow, acc, net);
    if url(ps).Err? {
      LoopNoUrl(url, ps, morerow, acc, net);
    } else if AsksAgain(ps, morerow, net) {
      var q := Request(GET, url(ps).value, None);
      LoopAgain(url, ps, morerow, acc, net);
      LoopSound(url, NextParams(ps), morerow, acc + ReadPage(net.replies[0]).value.items, Channel(net.replies[1..], net.sent + [q]));
    } else {
      LoopStops(url, ps, morerow, acc, net);
    }
  }

  /** The `$page` of the `i`-th request of a run reads back as its page number, and the next request is the next page's. */
  lemma NextPage(ps: Params, i: nat)
    requires StartPage(ps).Ok?
    ensures StartPage(PageParams(ps, i)) == Ok(StartPage(ps).value + i)
    ensures NextParams(PageParams(ps, i)) == PageParams(ps, i + 1)
  {
    if i >= 1 {
      var n := StartPage(ps).value + i;
      ParamAfterSet(ps, "$page", VStr(IntToString(n)), VInt(1));
      IntStringRoundTrip(n);
      SetParamTwice(ps, "$page", VStr(IntToString(n)), VStr(IntToString(n + 1)));
    }
  }

  /** `log` holds the requests of a run of the loop from the request made with `ps`: one GET per page. */
  predicate Requested(url: UrlFor, ps: Params, log: seq<Request>)
    decreases |log|
  {
    |log| == 0 ||
      (&& url(ps).Ok?
       && log[0] == Request(GET, url(ps).value, None)
       && (|log| > 1 ==> StartPage(ps).Ok? && Requested(url, NextParams(ps), log[1..])))
  }

  /** The requests of a successful loop: one per page, each a GET of that page's URL. */
  lemma {:induction false} LoopRequests(url: UrlFor, ps: Params, morerow: bool, acc: seq<Value>, net: Http)
    ensures var r := GetLoop(url, ps, morerow, acc, net);
      r.res.Ok? ==> Requested(url, ps, r.chan.sent[|net.sent|..])
    decreases |net.replies|
  {
    var r := GetLoop(url, ps, morerow, acc, net);
    if url(ps).Err? {
      LoopNoUrl(url, ps, morerow, acc, net);
    } else {
      var q := Request(GET, url(ps).value, None);
      if AsksAgain(ps, morerow, net) {
        LoopAgain(url, ps, morerow, acc, net);
        LoopRequests(url, NextParams(ps), morerow, acc + ReadPage(net.replies[0]).value.items, Channel(net.replies[1..], net.sent + [q]));
        if r.res.Ok? {
          RequestedFrom(url, ps, r.chan.sent, |net.sent|);
        }
      } else {
        LoopStops(url, ps, morerow, acc, net);
        if r.res.Ok? {
          assert r.chan.sent[|net.sent|..] == [q];
        }
      }
    }
  }

  /** A log whose `n`-th entry is the GET made with `ps`, followed by the requests of a run from the next parameters. */
  lemma RequestedFrom(url: UrlFor, ps: Params, sent: seq<Request>, n: nat)
    requires n < |sent| && url(ps).Ok? && sent[n] == Request(GET, url(ps).value, None)
    requires StartPage(ps).Ok? && Requested(url, NextParams(ps), sent[n + 1..])
    ensures Requested(url, ps, sent[n..])
  {
    assert sent[n..][1..] == sent[n + 1..];
  }

  /** The requests of a run from the `i`-th page's parameters ask for page `i`, `i + 1`, and so on. */
  lemma {:induction false} RequestedPages(url: UrlFor, ps: Params, i: nat, log: seq<Request>)
    requires i == 0 || StartPage(ps).Ok?
    requires Requested(url, PageParams(ps, i), log)
    ensures PageRequests(url, ps, i, log)
    decreases |log|
  {
    if |log| > 1 {
      assert StartPage(ps).Ok? by {
        if i == 0 {
          assert PageParams(ps, 0) == ps;
        }
      }
      NextPage(ps, i);
      RequestedPages(url, ps, i + 1, log[1..]);
    }
  }

  /** The loop from `ps` has a URL for each of its next `k` requests. */
  predicate Linked(url: UrlFor, ps: Params, k: nat)
    decreases k
  {
    k == 0 || (url(ps).Ok? && (k > 1 ==> StartPage(ps).Ok? && Linked(url, NextParams(ps), k - 1)))
  }

  /** When every page of a run has a URL, so do the next `k` requests from its `i`-th. */
  lemma {:induction false} LinkedPages(url: UrlFor, ps: Params, i: nat, k: nat)
    requires i == 0 || StartPage(ps).Ok?
    requires i + k >= 2 ==> StartPage(ps).Ok?
    requires PagesLinked(url, ps)
    ensures Linked(url, PageParams(ps, i), k)
    decreases k
  {
    assert url(PageParams(ps, i)).Ok?;
    if k > 1 {
      NextPage(ps, i);
      LinkedPages(url, ps, i + 1, k - 1);
    }
  }

  /** Completeness of the loop: a page chain in the server's replies is run to its end. */
  lemma {:induction false} LoopComplete(url: UrlFor, ps: Params, morerow: bool, acc: seq<Value>, net: Http, k: nat)
    requires 1 <= k <= |net.replies|
    requires PageChain(net.replies[..k], morerow)
    requires Linked(url, ps, k)
    ensures Ran(morerow, acc, net, GetLoop(url, ps, morerow, acc, net), k)
    decreases k
  {
    var q := Request(GET, url(ps).value, None);
    var r := GetLoop(url, ps, morerow, acc, net);
    assert net.replies[..k][0] == net.replies[0];
    var page := ReadPage(net.replies[0]).value;
    if k >= 2 {
      LoopAgain(url, ps, morerow, acc, net);
      var net1 := Channel(net.replies[1..], net.sent + [q]);
      RepliesPrefix(net.replies, k);
      ChainTail(net.replies[..k], morerow);
      assert net.replies[..k][1..] == net1.replies[..k - 1];
      LoopComplete(url, NextParams(ps), morerow, acc + page.items, net1, k - 1);
    } else {
      assert net.replies[..k] == [net.replies[0]];
      LoopStops(url, ps, morerow, acc, net);
    }
  }

  /**
   `get` succeeds exactly when the server holds a page chain for it; it then
   consumes exactly that chain, asks for page after page with `$page`
   counting up from its starting value, and returns the chain's last body if
   that has no `items`, otherwise the items of all the pages in order.
   */
  lemma GetReadsChain(base: string, path: string, ps: Params, morerow: bool, net: Http)
    ensures Get(base, path, ps, morerow, net).res.Ok? <==> exists k: nat :: GetChain(base, path, ps, morerow, net, k)
    ensures forall k: nat | GetChain(base, path, ps, morerow, net, k) ::
      var r := Get(base, path, ps, morerow, net);
      && r.res == Ok(Outcome([], net.replies[..k]))
      && r.chan.replies == net.replies[k..]
      && |r.chan.sent| == |net.sent| + k
      && r.chan.sent[..|net.sent|] == net.sent
      && PageRequests(Urls(base, path), ps, 0, r.chan.sent[|net.sent|..])
  {
    forall k: nat | GetChain(base, path, ps, morerow, net, k)
      ensures var r := Get(base, path, ps, morerow, net);
        && r.res == Ok(Outcome([], net.replies[..k]))
        && r.chan.replies == net.replies[k..]
        && |r.chan.sent| == |net.sent| + k
        && r.chan.sent[..|net.sent|] == net.sent
        && PageRequests(Urls(base, path), ps, 0, r.chan.sent[|net.sent|..])
    {
      GetReadsChainComplete(base, path, ps, morerow, net, k);
    }
    GetReadsChainSound(base, path, ps, morerow, net);
  }

  /** Completeness of `get`: a page chain of `k` replies is read in full, one request per page. */
  lemma GetReadsChainComplete(base: string, path: string, ps: Params, morerow: bool, net: Http, k: nat)
    requires GetChain(base, path, ps, morerow, net, k)
    ensures var r := Get(base, path, ps, morerow, net);
      && r.res == Ok(Outcome([], net.replies[..k]))
      && r.chan.replies == net.replies[k..]
      && |r.chan.sent| == |net.sent| + k
      && r.chan.sent[..|net.sent|] == net.sent
      && PageRequests(Urls(base, path), ps, 0, r.chan.sent[|net.sent|..])
  {
    var r := GetLoop(Urls(base, path), ps, morerow, [], net);
    PagesHaveUrls(base, path, ps);
    LinkedPages(Urls(base, path), ps, 0, k);
    assert PageParams(ps, 0) == ps;
    LoopComplete(Urls(base, path), ps, morerow, [], net, k);
    RanRun(morerow, [], net, r, k);
    LoopRequests(Urls(base, path), ps, morerow, [], net);
    RequestedPages(Urls(base, path), ps, 0, r.chan.sent[|net.sent|..]);
  }

  /** Soundness of `get`: a success read a page chain, the replies it consumed. */
  /** Without `morerow`, one readable reply is the whole outcome: its items, or its body when it is not a list. */
  lemma GetOnePage(base: string, path: string, ps: Params, net: Http)
    requires Url(base, path, ps).Ok? && |net.replies| > 0 && Readable(net.replies[0])
    ensures var page := ReadPage(net.replies[0]).value;
      Get(base, path, ps, false, net).res == Ok(if page.Whole? then RawBody(page.body) else Collected(page.items))
  {
    assert net.replies[..1] == [net.replies[0]];
    GetReadsChainComplete(base, path, ps, false, net, 1);
    OutcomeOne([], net.replies[0]);
  }

  lemma GetReadsChainSound(base: string, path: string, ps: Params, morerow: bool, net: Http)
    ensures var r := Get(base, path, ps, morerow, net);
      r.res.Ok? ==> |r.chan.replies| < |net.replies| && GetChain(base, path, ps, morerow, net, |net.replies| - |r.chan.replies|)
  {
    var r := GetLoop(Urls(base, path), ps, morerow, [], net);
    if r.res.Ok? {
      LoopSound(Urls(base, path), ps, morerow, [], net);
      var k := |net.replies| - |r.chan.replies|;
      RanRun(morerow, [], net, r, k);
      LoopRequests(Urls(base, path), ps, morerow, [], net);
      assert net.replies[..k][0] == net.replies[0];
    }
  }

  /** A later page without `items` replaces everything collected before it. */
  lemma RawPageDiscardsItems(base: string, path: string, ps: Params, items: seq<Value>, count: Value, body: Record, rest: seq<Reply>, sent: seq<Request>)
    requires Url(base, path, ps).Ok? && StartPage(ps).Ok?
    requires |items| > 0 && "items" !in body
    ensures var first := Reply(200, Json(VMap(map["items" := VList(items), "count" := count])));
      var r := Get(base, path, ps, true, Channel([first, Reply(200, Json(VMap(body)))] + rest, sent));
      r.res == Ok(RawBody(VMap(body))) && r.chan.replies == rest
  {
    var first := Reply(200, Json(VMap(map["items" := VList(items), "count" := count])));
    var second := Reply(200, Json(VMap(body)));
    var net := Channel([first, second] + rest, sent);
    assert ReadPage(first) == Ok(Items(items, true));
    assert ReadPage(second) == Ok(Whole(VMap(body)));
    assert net.replies[..2] == [first, second];
    assert GetChain(base, path, ps, true, net, 2);
    GetReadsChain(base, path, ps, true, net);
  }

  // ---------------------------------------------------------------------
  // Writes. Their URL is the base followed directly by the path.

  function Send(verb: Verb, base: string, path: string, payload: Option<Value>, net: Http): (Result<Reply>, Http)
  {
    Call(net, Request(verb, base + path, payload))
  }

  /**
   `post` as written: once the request is through, building its result
   calls `response.josn()`, which does not exist, so every call raises
   AttributeError, after the server has accepted the payload.
   */
  function PostAsWritten(base: string, path: string, payload: Value, net: Http): (r: Step<Value, Http>)
    ensures r.res.Err?
    ensures r.chan.sent == net.sent + [Request(POST, base + path, Some(payload))]
    ensures |net.replies| > 0 && Succeeded(net.replies[0].status) ==> r.res.error == AttributeError("josn")
  {
    var (reply, net1) := Send(POST, base, path, Some(payload), net);
    if reply.Err? then Step(Err(reply.error), net1)
    else Step(Err(AttributeError("josn")), net1)
  }

  /** `patch` as written: raises AttributeError for `josn` like `post`. */
  function PatchAsWritten(base: string, path: string, payload: Value, net: Http): (r: Step<Value, Http>)
    ensures r.res.Err?
    ensures r.chan.sent == net.sent + [Request(PATCH, base + path, Some(payload))]
    ensures |net.replies| > 0 && Succeeded(net.replies[0].status) ==> r.res.error == AttributeError("josn")
  {
    var (reply, net1) := Send(PATCH, base, path, Some(payload), net);
    if reply.Err? then Step(Err(reply.error), net1)
    else Step(Err(AttributeError("josn")), net1)
  }

  /** A write whose result is the decoded reply body. */
  function Write(verb: Verb, base: string, path: string, payload: Value, net: Http): (r: Step<Value, Http>)
    ensures r.chan.sent == net.sent + [Request(verb, base + path, Some(payload))]
    ensures r.res.Ok? <==> |net.replies| > 0 && Succeeded(net.replies[0].status) && net.replies[0].body.Json?
    ensures r.res.Ok? ==> r.res.value == net.replies[0].body.value && r.chan.replies == net.replies[1..]
  {
    var (reply, net1) := Send(verb, base, path, Some(payload), net);
    if reply.Err? then Step(Err(reply.error), net1)
    else
      var v := Decode(reply.value.body);
      if v.Err? then Step(Err(v.error), net1) else Step(Ok(v.value), net1)
  }

  /** `post` as evidently intended: the decoded body of an accepted request. */
  function Post(base: string, path: string, payload: Value, net: Http): (r: Step<Value, Http>)
    ensures r.chan.sent == net.sent + [Request(POST, base + path, Some(payload))]
    ensures r.res.Ok? <==> |net.replies| > 0 && Succeeded(net.replies[0].status) && net.replies[0].body.Json?
    ensures r.res.Ok? ==> r.res.value == net.replies[0].body.value && r.chan.replies == net.replies[1..]
  {
    Write(POST, base, path, payload, net)
  }

  /** `patch` as evidently intended. */
  function Patch(base: string, path: string, payload: Value, net: Http): (r: Step<Value, Http>)
    ensures r.chan.sent == net.sent + [Request(PATCH, base + path, Some(payload))]
    ensures r.res.Ok? <==> |net.replies| > 0 && Succeeded(net.replies[0].status) && net.replies[0].body.Json?
    ensures r.res.Ok? ==> r.res.value == net.replies[0].body.value && r.chan.replies == net.replies[1..]
  {
    Write(PATCH, base, path, payload, net)
  }

  /** `put`: the decoded body. */
  function Put(base: string, path: string, payload: Value, net: Http): (r: Step<Value, Http>)
    ensures r.chan.sent == net.sent + [Request(PUT, base + path, Some(payload))]
    ensures r.res.Ok? <==> |net.replies| > 0 && Succeeded(net.replies[0].status) && net.replies[0].body.Json?
    ensures r.res.Ok? ==> r.res.value == net.replies[0].body.value && r.chan.replies == net.replies[1..]
  {
    Write(PUT, base, path, payload, net)
  }

  /** `delete_rest`: the status code, whatever the body. */
  function DeleteRest(base: string, path: string, net: Http): (r: Step<int, Http>)
    ensures r.chan.sent == net.sent + [Request(DELETE, base + path, None)]
    ensures r.res.Ok? <==> |net.replies| > 0 && Succeeded(net.replies[0].status)
    ensures r.res.Ok? ==> r.res.value == net.replies[0].status && r.chan.replies == net.replies[1..]
  {
    var (reply, net1) := Send(DELETE, base, path, None, net);
    if reply.Err? then Step(Err(reply.error), net1) else Step(Ok(reply.value.status), net1)
  }

  // ---------------------------------------------------------------------
  // copy

  const AssetsPath := "asset/v1/content/assets"

  /** The query `copy` lists the source folder's assets of one type with. */
  function CopyParams(assetType: string, source: string): Params
  {
    [("$page", VStr("1")),
     ("$pagesize", VStr("1000")),
     ("$filter", VStr("assetType.name=" + assetType + " AND category.id=" + source))]
  }

  /** The copy of one asset: same name, type, views and content, in the destination folder, with a key left to the server. */
  function CopyPayload(asset: Value, destination: string): (r: Result<Record>)
    ensures r.Ok? <==> asset.VMap? && "name" in asset.fields && "assetType" in asset.fields
    ensures r.Ok? ==>
      && r.value.Keys == {"name", "assetType", "category", "customerKey", "views", "content"}
      && r.value["name"] == asset.fields["name"]
      && r.value["assetType"] == asset.fields["assetType"]
      && r.value["category"] == VMap(map["id" := VStr(destination)])
      && r.value["customerKey"] == VNone
      && ("views" in asset.fields ==> r.value["views"] == asset.fields["views"])
      && ("views" !in asset.fields ==> r.value["views"] == VMap(map[]))
      && ("content" in asset.fields ==> r.value["content"] == asset.fields["content"])
      && ("content" !in asset.fields ==> r.value["content"] == VMap(map[]))
  {
    var name :- Subscript(asset, "name");
    var assetType :- Subscript(asset, "assetType");
    Ok(map[
      "name" := name,
      "assetType" := assetType,
      "category" := VMap(map["id" := VStr(destination)]),
      "customerKey" := VNone,
      "views" := Lookup(asset.fields, "views", VMap(map[])),
      "content" := Lookup(asset.fields, "content", VMap(map[]))])
  }

  /** Posts a copy of each asset in turn, stopping at the first failure. */
  function PostCopies(base: string, assets: seq<Value>, destination: string, net: Http): (r: Step<(), Http>)
    decreases |assets|
  {
    if |assets| == 0 then Step(Ok(()), net)
    else
      var payload := CopyPayload(assets[0], destination);
      if payload.Err? then Step(Err(payload.error), net)
      else
        var post := Post(base, "/" + AssetsPath, VMap(payload.value), net);
        if post.res.Err? then Step(Err(post.res.error), post.chan)
        else PostCopies(base, assets[1..], destination, post.chan)
  }

  /**
   `copy` as written: `get` with `morerow` returns either the collected
   items, which have no `.get`, or a body without `items`, whose
   `.get('items', [])` is empty; so nothing is ever posted.
   */
  function CopyAsWritten(base: string, source: string, destination: string, assetType: string, net: Http): (r: Step<(), Http>)
  {
    var got := Get(base, AssetsPath, CopyParams(assetType, source), true, net);
    if got.res.Err? then Step(Err(got.res.error), got.chan)
    else match got.res.value
      case Collected(_) => Step(Err(AttributeError("get")), got.chan)
      case RawBody(b) =>
        if b.VMap? then
          var assets := Lookup(b.fields, "items", VList([]));
          var xs := Iterate(assets);
          if xs.Err? then Step(Err(xs.error), got.chan)
          else PostCopies(base, xs.value, destination, got.chan)
        else Step(Err(AttributeError("get")), got.chan)
  }

  /** `copy` as evidently intended: every asset of the collected pages is posted as a copy. */
  function Copy(base: string, source: string, destination: string, assetType: string, net: Http): (r: Step<(), Http>)
  {
    var got := Get(base, AssetsPath, CopyParams(assetType, source), true, net);
    if got.res.Err? then Step(Err(got.res.error), got.chan)
    else match got.res.value
      case Collected(xs) => PostCopies(base, xs, destination, got.chan)
      case RawBody(_) => Step(Err(AttributeError("Results")), got.chan)
  }

  lemma {:induction false} LoopOnlyGets(url: UrlFor, ps: Params, morerow: bool, acc: seq<Value>, net: Http)
    ensures var r := GetLoop(url, ps, morerow, acc, net);
      var log := r.chan.sent[|net.sent|..];
      && (forall j :: 0 <= j < |log| ==> log[j].verb == GET)
      && Posted(log) == []
    decreases |net.replies|
  {
    var r := GetLoop(url, ps, morerow, acc, net);
    if url(ps).Err? {
      LoopNoUrl(url, ps, morerow, acc, net);
      assert r.chan.sent[|net.sent|..] == [];
    } else {
      var q := Request(GET, url(ps).value, None);
      if AsksAgain(ps, morerow, net) {
        LoopAgain(url, ps, morerow, acc, net);
        LoopOnlyGets(url, NextParams(ps), morerow, acc + ReadPage(net.replies[0]).value.items, Channel(net.replies[1..], net.sent + [q]));
        GetsFrom(r.chan.sent, |net.sent|);
      } else {
        LoopStops(url, ps, morerow, acc, net);
        assert r.chan.sent[|net.sent|..] == [q];
      }
    }
    NoPosts(r.chan.sent[|net.sent|..]);
  }

  /** A GET followed by nothing but GETs is nothing but GETs. */
  lemma GetsFrom(sent: seq<Request>, n: nat)
    requires n < |sent| && sent[n].verb == GET
    requires forall j :: n + 1 <= j < |sent| ==> sent[j].verb == GET
    ensures var log := sent[n..]; forall j :: 0 <= j < |log| ==> log[j].verb == GET
  {
  }

  lemma {:induction false} NoPosts(log: seq<Request>)
    requires forall j :: 0 <= j < |log| ==> log[j].verb == GET
    ensures Posted(log) == []
    decreases |log|
  {
    if |log| > 0 {
      NoPosts(log[1..]);
    }
  }

  /** `get` sends only GET requests. */
  lemma GetPostsNothing(base: string, path: string, ps: Params, morerow: bool, net: Http)
    ensures var r := Get(base, path, ps, morerow, net);
      && (forall j :: |net.sent| <= j < |r.chan.sent| ==> r.chan.sent[j].verb == GET)
      && Posted(r.chan.sent[|net.sent|..]) == []
  {
    LoopOnlyGets(Urls(base, path), ps, morerow, [], net);
  }

  /** The `copy` as written posts nothing, whatever the server replies. */
  lemma CopyAsWrittenPostsNothing(base: string, source: string, destination: string, assetType: string, net: Http)
    ensures var r := CopyAsWritten(base, source, destination, assetType, net);
      |r.chan.sent| >= |net.sent| && Posted(r.chan.sent[|net.sent|..]) == []
  {
    var got := Get(base, AssetsPath, CopyParams(assetType, source), true, net);
    GetPostsNothing(base, AssetsPath, CopyParams(assetType, source), true, net);
    if got.res.Ok? && got.res.value.RawBody? && got.res.value.body.VMap? {
      // a body read as Whole has no "items" key, so the assets are the empty default
      LoopRawHasNoItems(Urls(base, AssetsPath), CopyParams(assetType, source), true, [], net);
    }
  }

  lemma {:induction false} LoopRawHasNoItems(url: UrlFor, ps: Params, morerow: bool, acc: seq<Value>, net: Http)
    ensures var r := GetLoop(url, ps, morerow, acc, net);
      r.res.Ok? && r.res.value.RawBody? && r.res.value.body.VMap? ==> "items" !in r.res.value.body.fields
    decreases |net.replies|
  {
    if url(ps).Err? {
      LoopNoUrl(url, ps, morerow, acc, net);
    } else if AsksAgain(ps, morerow, net) {
      var q := Request(GET, url(ps).value, None);
      LoopAgain(url, ps, morerow, acc, net);
      LoopRawHasNoItems(url, NextParams(ps), morerow, acc + ReadPage(net.replies[0]).value.items, Channel(net.replies[1..], net.sent + [q]));
    } else {
      LoopStops(url, ps, morerow, acc, net);
    }
  }

  /**
   `PostCopies` succeeds only by posting one copy per asset, in order, each
   with the asset's name and type and the destination folder.
   */
  lemma {:induction false} PostCopiesPostsEach(base: string, assets: seq<Value>, destination: string, net: Http)
    ensures var r := PostCopies(base, assets, destination, net);
      r.res.Ok? ==>
        && |r.chan.sent| == |net.sent| + |assets|
        && r.chan.sent[..|net.sent|] == net.sent
        && forall i :: 0 <= i < |assets| ==>
          && CopyPayload(assets[i], destination).Ok?
          && r.chan.sent[|net.sent| + i] == Request(POST, base + "/" + AssetsPath, Some(VMap(CopyPayload(assets[i], destination).value)))
    decreases |assets|
  {
    var r := PostCopies(base, assets, destination, net);
    if |assets| > 0 && r.res.Ok? {
      var payload := CopyPayload(assets[0], destination).value;
      var post := Post(base, "/" + AssetsPath, VMap(payload), net);
      PostCopiesPostsEach(base, assets[1..], destination, post.chan);
      forall i | 1 <= i < |assets|
        ensures r.chan.sent[|net.sent| + i] == Request(POST, base + "/" + AssetsPath, Some(VMap(CopyPayload(assets[i], destination).value)))
      {
        assert assets[1..][i - 1] == assets[i];
        assert |post.chan.sent| + (i - 1) == |net.sent| + i;
      }
    }
  }

  /**
   The corrected `copy` that succeeds has listed the source folder's assets
   with one run of `get` and posted one copy per asset it found, in order.
   */
  lemma CopyPostsEveryAsset(base: string, source: string, destination: string, assetType: string, net: Http)
    ensures var r := Copy(base, source, destination, assetType, net);
      var got := Get(base, AssetsPath, CopyParams(assetType, source), true, net);
      r.res.Ok? ==>
        && got.res.Ok? && got.res.value.Collected?
        && var assets := got.res.value.results;
        && |r.chan.sent| == |got.chan.sent| + |assets|
        && forall i :: 0 <= i < |assets| ==>
          && CopyPayload(assets[i], destination).Ok?
          && r.chan.sent[|got.chan.sent| + i] == Request(POST, base + "/" + AssetsPath, Some(VMap(CopyPayload(assets[i], destination).value)))
  {
    var got := Get(base, AssetsPath, CopyParams(assetType, source), true, net);
    if got.res.Ok? && got.res.value.Collected? {
      PostCopiesPostsEach(base, got.res.value.results, destination, got.chan);
    }
  }
}

=== FILE: soap_client.dfy ===
/**
 The SOAP side of the client (`ET_Client.retrieve` and `ET_Client.create`).
 The SOAP service is an oracle of replies; a reply is a fault or a response
 record. `retrieve` with `morerow` drains continuation pages by resending the
 request with the previous page's `RequestID`.
 */
module SoapClient {
  import opened Base
  import opened Values
  import opened Net

  datatype RetrieveRequest = RetrieveRequest(
    objectType: Value,
    properties: Value,
    filter: Option<Value>,
    continueRequest: Option<Value>)

  datatype SoapCall = RetrieveCall(request: RetrieveRequest) | CreateCall(objectType: Value, props: Record)

  datatype SoapReply = Fault | Response(body: Record)

  type Soap = Channel<SoapCall, SoapReply>

  /** One SOAP operation: the next reply, a fault raising, no reply at all a failed connection. */
  function Invoke(net: Soap, call: SoapCall): (r: (Result<Record>, Soap))
    ensures r.1.sent == net.sent + [call]
    ensures r.0.Ok? <==> |net.replies| > 0 && net.replies[0].Response?
    ensures r.0.Ok? ==> r.0.value == net.replies[0].body && r.1.replies == net.replies[1..]
  {
    var (reply, net') := Exchange(net, call);
    if reply.None? then (Err(ConnectionError), net')
    else if reply.value.Fault? then (Err(SoapFault), net')
    else (Ok(reply.value.body), net')
  }

  /** `list(response.Results or [])`. */
  function PageResults(response: Record): Result<seq<Value>>
  {
    var v := Lookup(response, "Results", VNone);
    if !Truthy(v) then Ok([]) else Iterate(v)
  }

  /** The drain loop fetches another page after `response`: more data is announced and a `RequestID` is given. */
  predicate Continues(response: Record)
  {
    && Lookup(response, "OverallStatus", VBool(false)) == VStr("MoreDataAvailable")
    && Truthy(Lookup(response, "RequestID", VNone))
  }

  /** The response a completed drain hands back. */
  function Drained(results: seq<Value>): Record
  {
    map[
      "Results" := VList(results),
      "OverallStatus" := VStr("OK"),
      "RequestID" := VNone,
      "MoreDataAvailable" := VBool(false)]
  }

  /** `response` is what a completed drain hands back. */
  predicate IsDrained(response: Record)
  {
    "Results" in response && response["Results"].VList? && response == Drained(response["Results"].items)
  }

  /** The request as `retrieve` builds it: missing properties become `[]`, a falsy filter is not set. */
  function NewRequest(objectType: Value, properties: Value, filter: Value): RetrieveRequest
  {
    RetrieveRequest(
      objectType,
      if Truthy(properties) then properties else VList([]),
      if Truthy(filter) then Some(filter) else None,
      None)
  }

  /** The request resent after `response`, carrying its `RequestID`. */
  function Continuation(req: RetrieveRequest, response: Record): RetrieveRequest
  {
    req.(continueRequest := Some(Lookup(response, "RequestID", VNone)))
  }

  /** The drain loop after `response`, with `acc` the results gathered so far. */
  function Drain(req: RetrieveRequest, response: Record, acc: seq<Value>, net: Soap): (r: Step<Record, Soap>)
    ensures r.res.Ok? ==> IsDrained(r.res.value)
    decreases |net.replies|
  {
    if !Continues(response) then Step(Ok(Drained(acc)), net)
    else
      var next := Continuation(req, response);
      var (reply, net') := Invoke(net, RetrieveCall(next));
      match reply
      case Err(e) => Step(Err(e), net')
      case Ok(page) =>
        match PageResults(page)
        case Err(e) => Step(Err(e), net')
        case Ok(xs) => Drain(next, page, acc + xs, net')
  }

  /**
   `retrieve(object_type, properties, filter, morerow)`. Without `morerow` the
   first response is returned as it came; with it the pages are drained and
   the answer always reads as complete, whatever the last page said.
   */
  function Retrieve(objectType: Value, properties: Value, filter: Value, morerow: bool, net: Soap): (r: Step<Record, Soap>)
    ensures !morerow ==>
      && r.chan.sent == net.sent + [RetrieveCall(NewRequest(objectType, properties, filter))]
      && (r.res.Ok? <==> |net.replies| > 0 && net.replies[0].Response?)
      && (r.res.Ok? ==> r.res.value == net.replies[0].body)
    ensures morerow && r.res.Ok? ==>
      && r.res.value.Keys == {"Results", "OverallStatus", "RequestID", "MoreDataAvailable"}
      && r.res.value["OverallStatus"] == VStr("OK")
      && r.res.value["RequestID"] == VNone
      && r.res.value["MoreDataAvailable"] == VBool(false)
      && r.res.value["Results"].VList?
  {
    var req := NewRequest(objectType, properties, filter);
    var (reply, net1) := Invoke(net, RetrieveCall(req));
    match reply
    case Err(e) => Step(Err(e), net1)
    case Ok(first) =>
      if !morerow then Step(Ok(first), net1)
      else
        match PageResults(first)
        case Err(e) => Step(Err(e), net1)
        case Ok(xs) => Drain(req, first, xs, net1)
  }

  /** `create(object_type, props)`: one Create call. */
  function Create(objectType: Value, props: Record, net: Soap): (r: Step<Record, Soap>)
    ensures r.chan.sent == net.sent + [CreateCall(objectType, props)]
    ensures r.res.Ok? <==> |net.replies| > 0 && net.replies[0].Response?
    ensures r.res.Ok? ==> r.res.value == net.replies[0].body && r.chan.replies == net.replies[1..]
  {
    var (reply, net') := Invoke(net, CreateCall(objectType, props));
    Step(reply, net')
  }

  // ---------------------------------------------------------------------
  // A reference description of a drain, in terms of the pages it fetches

  predicate AllResponses(rs: seq<SoapReply>)
  {
    forall i :: 0 <= i < |rs| ==> rs[i].Response?
  }

  function Bodies(rs: seq<SoapReply>): (pages: seq<Record>)
    requires AllResponses(rs)
    ensures |pages| == |rs|
    ensures forall i :: 0 <= i < |rs| ==> pages[i] == rs[i].body
  {
    seq(|rs|, i requires 0 <= i < |rs| => rs[i].body)
  }

  /**
   `pages` are the pages a drain fetches after `first`: each was fetched
   because the page before it continued, and the last page does not continue.
   */
  predicate DrainChain(first: Record, pages: seq<Record>)
  {
    && (forall i :: 0 <= i < |pages| ==> Continues(([first] + pages)[i]))
    && !Continues(([first] + pages)[|pages|])
  }

  /** The pages' results in page order; fails at the first page whose `Results` cannot be listed. */
  function Gather(pages: seq<Record>): Result<seq<Value>>
  {
    if |pages| == 0 then Ok([])
    else
      match PageResults(pages[0])
      case Err(e) => Err(e)
      case Ok(xs) =>
        match Gather(pages[1..])
        case Err(e) => Err(e)
        case Ok(ys) => Ok(xs + ys)
  }

  /** The continuation requests sent while fetching `pages`: each carries the `RequestID` of the page before it. */
  function ContinueCalls(req: RetrieveRequest, first: Record, pages: seq<Record>): (calls: seq<SoapCall>)
    ensures |calls| == |pages|
  {
    seq(|pages|, i requires 0 <= i < |pages| =>
      RetrieveCall(req.(continueRequest := Some(Lookup(([first] + pages)[i], "RequestID", VNone)))))
  }

  lemma ChainStep(first: Record, page: Record, pages: seq<Record>)
    requires Continues(first)
    ensures DrainChain(first, [page] + pages) <==> DrainChain(page, pages)
  {
    assert [first] + ([page] + pages) == [first] + ([page] + pages);
    forall i | 0 <= i < |pages| + 1
      ensures ([first] + ([page] + pages))[i + 1] == ([page] + pages)[i]
    {
    }
  }

  lemma GatherStep(page: Record, pages: seq<Record>)
    ensures Gather([page] + pages) ==
      match PageResults(page)
      case Err(e) => Err(e)
      case Ok(xs) => (match Gather(pages) case Err(e) => Err(e) case Ok(ys) => Ok(xs + ys))
  {
    assert ([page] + pages)[1..] == pages;
  }

  lemma ContinueCallsStep(req: RetrieveRequest, first: Record, page: Record, pages: seq<Record>)
    ensures ContinueCalls(req, first, [page] + pages) ==
      [RetrieveCall(Continuation(req, first))] + ContinueCalls(Continuation(req, first), page, pages)
  {
    var lhs := ContinueCalls(req, first, [page] + pages);
    var rhs := [RetrieveCall(Continuation(req, first))] + ContinueCalls(Continuation(req, first), page, pages);
    forall i | 0 <= i < |lhs| ensures lhs[i] == rhs[i] {
      if i > 0 {
        assert ([first] + ([page] + pages))[i] == ([page] + pages)[i - 1];
      }
    }
  }

  lemma BodiesStep(rs: seq<SoapReply>, k: nat)
    requires 0 < k <= |rs|
    requires AllResponses(rs[..k])
    ensures AllResponses(rs[1..][..k - 1])
    ensures Bodies(rs[..k]) == [rs[0].body] + Bodies(rs[1..][..k - 1])
  {
    var head, tail := rs[..k], rs[1..][..k - 1];
    assert head[0] == rs[0];
    forall i | 0 <= i < |tail| ensures tail[i] == head[i + 1] {
    }
  }

  /** The drain ends at once after a page that does not continue. */
  lemma DrainStops(req: RetrieveRequest, first: Record, acc: seq<Value>, net: Soap)
    requires ChainAt(first, net, 0)
    ensures Drain(req, first, acc, net) == Step(
      Ok(Drained(acc + Gather(Bodies(net.replies[..0])).value)),
      Channel(net.replies[0..], net.sent + ContinueCalls(req, first, Bodies(net.replies[..0]))))
  {
    var pages := Bodies(net.replies[..0]);
    assert pages == [];
    assert !Continues(first);
    assert net.replies[0..] == net.replies;
    assert ContinueCalls(req, first, pages) == [];
    assert net.sent + [] == net.sent;
    assert acc + [] == acc;
  }

  /** One turn of the drain loop, for a page that continues and a listable reply. */
  lemma DrainUnfold(req: RetrieveRequest, first: Record, acc: seq<Value>, net: Soap)
    requires Continues(first)
    requires |net.replies| > 0 && net.replies[0].Response?
    requires PageResults(net.replies[0].body).Ok?
    ensures Drain(req, first, acc, net) == Drain(
      Continuation(req, first),
      net.replies[0].body,
      acc + PageResults(net.replies[0].body).value,
      Channel(net.replies[1..], net.sent + [RetrieveCall(Continuation(req, first))]))
  {
  }

  lemma RepliesStep(replies: seq<SoapReply>, k: nat)
    requires 0 < k <= |replies|
    ensures replies[..k] == [replies[0]] + replies[1..][..k - 1]
    ensures replies[k..] == replies[1..][k - 1..]
  {
  }

  /** The server's next `k` replies are pages a drain after `first` fetches: a chain whose results can all be listed. */
  predicate ChainAt(first: Record, net: Soap, k: nat)
  {
    && k <= |net.replies|
    && AllResponses(net.replies[..k])
    && DrainChain(first, Bodies(net.replies[..k]))
    && Gather(Bodies(net.replies[..k])).Ok?
  }

  lemma {:induction false} ChainAtStep(first: Record, net: Soap, k: nat)
    requires 0 < k <= |net.replies|
    requires Continues(first) && net.replies[0].Response?
    requires PageResults(net.replies[0].body).Ok?
    ensures ChainAt(first, net, k) <==> ChainAt(net.replies[0].body, Channel(net.replies[1..], []), k - 1)
    ensures ChainAt(first, net, k) ==>
      Gather(Bodies(net.replies[..k])).value ==
        PageResults(net.replies[0].body).value + Gather(Bodies(net.replies[1..][..k - 1])).value
  {
    var page := net.replies[0].body;
    RepliesStep(net.replies, k);
    var rest := net.replies[1..][..k - 1];
    assert AllResponses(net.replies[..k]) <==> AllResponses(rest) by {
      assert forall i :: 0 <= i < k - 1 ==> net.replies[..k][i + 1] == rest[i];
    }
    if AllResponses(rest) {
      assert Bodies(net.replies[..k]) == [page] + Bodies(rest);
      ChainStep(first, page, Bodies(rest));
      GatherStep(page, Bodies(rest));
    }
  }

  /**
   Whatever a drain returns successfully was produced by a chain of pages
   taken off the front of the server's replies (`DrainComplete` then says
   exactly what it returns).
   */
  lemma {:induction false} DrainSound(req: RetrieveRequest, first: Record, acc: seq<Value>, net: Soap)
    ensures var r := Drain(req, first, acc, net);
      r.res.Ok? ==> 0 <= |net.replies| - |r.chan.replies| && ChainAt(first, net, |net.replies| - |r.chan.replies|)
    ensures var r := Drain(req, first, acc, net);
      r.res.Ok? ==> r.res.value == Drained(acc + Gather(Bodies(net.replies[..|net.replies| - |r.chan.replies|])).value)
    decreases |net.replies|
  {
    var r := Drain(req, first, acc, net);
    DrainSoundChain(req, first, acc, net);
    if r.res.Ok? {
      DrainComplete(req, first, acc, net, |net.replies| - |r.chan.replies|);
    }
  }

  /** The chain half of `DrainSound`. */
  lemma {:induction false} DrainSoundChain(req: RetrieveRequest, first: Record, acc: seq<Value>, net: Soap)
    ensures var r := Drain(req, first, acc, net);
      r.res.Ok? ==> 0 <= |net.replies| - |r.chan.replies| && ChainAt(first, net, |net.replies| - |r.chan.replies|)
    decreases |net.replies|
  {
    var r := Drain(req, first, acc, net);
    if r.res.Ok? && Continues(first) {
      var next := Continuation(req, first);
      var (reply, net') := Invoke(net, RetrieveCall(next));
      var page := reply.value;
      var xs := PageResults(page).value;
      DrainSoundChain(next, page, acc + xs, net');
      var r' := Drain(next, page, acc + xs, net');
      assert r == r';
      var k' := |net'.replies| - |r'.chan.replies|;
      assert ChainAt(page, net', k');
      assert ChainAt(page, Channel(net.replies[1..], []), k');
      ChainAtStep(first, net, k' + 1);
    } else if r.res.Ok? {
      assert net.replies[..0] == [];
      assert Bodies(net.replies[..0]) == [];
    }
  }

  /**
   When the server's next `k` replies are pages a drain after `first` fetches,
   the drain takes exactly those pages, sends one continuation request per page,
   and returns their results appended to `acc`.
   */
  lemma {:induction false} DrainComplete(req: RetrieveRequest, first: Record, acc: seq<Value>, net: Soap, k: nat)
    requires ChainAt(first, net, k)
    ensures Drain(req, first, acc, net) == Step(
      Ok(Drained(acc + Gather(Bodies(net.replies[..k])).value)),
      Channel(net.replies[k..], net.sent + ContinueCalls(req, first, Bodies(net.replies[..k]))))
    decreases k
  {
    if k == 0 {
      DrainStops(req, first, acc, net);
    } else {
      ChainHead(first, net, k, net.sent + [RetrieveCall(Continuation(req, first))]);
      var page := net.replies[0].body;
      var net' := Channel(net.replies[1..], net.sent + [RetrieveCall(Continuation(req, first))]);
      DrainComplete(Continuation(req, first), page, acc + PageResults(page).value, net', k - 1);
      DrainUnfold(req, first, acc, net);
      DrainCompleteStep(req, first, acc, net, k);
    }
  }

  /**
   The inductive step of `DrainComplete`: what a completed drain of the
   remaining chain returns after one turn of the loop is what the whole chain
   returns.
   */
  lemma DrainCompleteStep(req: RetrieveRequest, first: Record, acc: seq<Value>, net: Soap, k: nat)
    requires 0 < k <= |net.replies| && AllResponses(net.replies[..k])
    requires net.replies[0].Response? && PageResults(net.replies[0].body).Ok?
    requires AllResponses(net.replies[1..][..k - 1])
    requires
      var page := net.replies[0].body;
      var pages' := Bodies(net.replies[1..][..k - 1]);
      && Bodies(net.replies[..k]) == [page] + pages'
      && Gather(pages').Ok?
      && Gather(Bodies(net.replies[..k])).value == PageResults(page).value + Gather(pages').value
    ensures
      var page := net.replies[0].body;
      var next := Continuation(req, first);
      var net' := Channel(net.replies[1..], net.sent + [RetrieveCall(next)]);
      var pages' := Bodies(net.replies[1..][..k - 1]);
      Step(
        Ok(Drained(acc + PageResults(page).value + Gather(pages').value)),
        Channel(net'.replies[k - 1..], net'.sent + ContinueCalls(next, page, pages'))) ==
      Step(
        Ok(Drained(acc + Gather(Bodies(net.replies[..k])).value)),
        Channel(net.replies[k..], net.sent + ContinueCalls(req, first, Bodies(net.replies[..k]))))
  {
    var pages := Bodies(net.replies[..k]);
    var page := net.replies[0].body;
    var pages' := Bodies(net.replies[1..][..k - 1]);
    var next := Continuation(req, first);
    var xs := PageResults(page).value;
    assert acc + xs + Gather(pages').value == acc + Gather(pages).value;
    ContinueCallsStep(req, first, page, pages');
    assert net.sent + [RetrieveCall(next)] + ContinueCalls(next, page, pages') == net.sent + ContinueCalls(req, first, pages);
    assert net.replies[1..][k - 1..] == net.replies[k..];
  }

  /** A chain of `k > 0` pages is its first page followed by a chain of `k - 1` pages after it. */
  lemma ChainHead(first: Record, net: Soap, k: nat, sent: seq<SoapCall>)
    requires 0 < k && ChainAt(first, net, k)
    ensures Continues(first) && net.replies[0].Response?
    ensures PageResults(net.replies[0].body).Ok?
    ensures ChainAt(net.replies[0].body, Channel(net.replies[1..], sent), k - 1)
    ensures AllResponses(net.replies[1..][..k - 1])
    ensures Bodies(net.replies[..k]) == [net.replies[0].body] + Bodies(net.replies[1..][..k - 1])
    ensures Gather(Bodies(net.replies[..k])).value ==
      PageResults(net.replies[0].body).value + Gather(Bodies(net.replies[1..][..k - 1])).value
  {
    var pages := Bodies(net.replies[..k]);
    assert Continues(([first] + pages)[0]);
    assert net.replies[..k][0] == net.replies[0];
    BodiesStep(net.replies, k);
    GatherStep(net.replies[0].body, Bodies(net.replies[1..][..k - 1]));
    ChainAtStep(first, net, k);
  }

  /**
   A drained retrieve succeeds exactly when the server's replies begin with a
   chain of listable pages, the first response included; it then takes exactly
   those pages and returns their results in order, marked complete.
   */
  lemma RetrieveDrainsChain(objectType: Value, properties: Value, filter: Value, net: Soap)
    ensures var r := Retrieve(objectType, properties, filter, true, net);
      r.res.Ok? <==> exists k :: 1 <= k <= |net.replies| && RetrieveChain(net, k)
    ensures var r := Retrieve(objectType, properties, filter, true, net);
      forall k :: 1 <= k <= |net.replies| && RetrieveChain(net, k) ==>
        && r.res == Ok(Drained(Gather(Bodies(net.replies[..k])).value))
        && r.chan.replies == net.replies[k..]
        && |r.chan.sent| == |net.sent| + k
  {
    var r := Retrieve(objectType, properties, filter, true, net);
    var req := NewRequest(objectType, properties, filter);
    var (reply, net1) := Invoke(net, RetrieveCall(req));
    forall k | 1 <= k <= |net.replies| && RetrieveChain(net, k)
      ensures && r.res == Ok(Drained(Gather(Bodies(net.replies[..k])).value))
              && r.chan.replies == net.replies[k..]
              && |r.chan.sent| == |net.sent| + k
    {
      RetrieveChainStep(net, k);
      var first := net.replies[0].body;
      assert net1.replies == net.replies[1..];
      DrainComplete(req, first, PageResults(first).value, net1, k - 1);
      assert net1.replies[k - 1..] == net.replies[k..];
    }
    if r.res.Ok? {
      var first := reply.value;
      var xs := PageResults(first).value;
      DrainSound(req, first, xs, net1);
      var k := |net1.replies| - |r.chan.replies| + 1;
      assert ChainAt(first, net1, k - 1);
      RetrieveChainStep(net, k);
    }
  }

  /** The server's first `k` replies are listable pages, each after the first fetched because its predecessor continued. */
  predicate RetrieveChain(net: Soap, k: nat)
  {
    && 1 <= k <= |net.replies|
    && AllResponses(net.replies[..k])
    && DrainChain(Bodies(net.replies[..k])[0], Bodies(net.replies[..k])[1..])
    && Gather(Bodies(net.replies[..k])).Ok?
  }

  lemma RetrieveChainStep(net: Soap, k: nat)
    requires 1 <= k <= |net.replies|
    ensures RetrieveChain(net, k) <==>
      && net.replies[0].Response?
      && PageResults(net.replies[0].body).Ok?
      && ChainAt(net.replies[0].body, Channel(net.replies[1..], []), k - 1)
    ensures RetrieveChain(net, k) ==>
      Gather(Bodies(net.replies[..k])).value ==
        PageResults(net.replies[0].body).value + Gather(Bodies(net.replies[1..][..k - 1])).value
  {
    RepliesStep(net.replies, k);
    var rest := net.replies[1..][..k - 1];
    assert net.replies[..k][0] == net.replies[0];
    assert AllResponses(net.replies[..k]) <==> net.replies[0].Response? && AllResponses(rest) by {
      assert forall i :: 0 <= i < k - 1 ==> net.replies[..k][i + 1] == rest[i];
    }
    if net.replies[0].Response? && AllResponses(rest) {
      var first := net.replies[0].body;
      assert Bodies(net.replies[..k]) == [first] + Bodies(rest);
      assert ([first] + Bodies(rest))[1..] == Bodies(rest);
      GatherStep(first, Bodies(rest));
    }
  }

  /**
   The two-page case: a first page announcing more data with a continuation id,
   then a page saying OK, drain to both pages' results in order with status OK.
   */
  lemma TwoPageDrain(page1: seq<Value>, page2: seq<Value>, id: string, objectType: Value, properties: Value, filter: Value, sent: seq<SoapCall>)
    requires |id| > 0
    ensures var net := Channel([
        Response(map["Results" := VList(page1), "OverallStatus" := VStr("MoreDataAvailable"), "RequestID" := VStr(id)]),
        Response(map["Results" := VList(page2), "OverallStatus" := VStr("OK")])], sent);
      var r := Retrieve(objectType, properties, filter, true, net);
      && r.res.Ok?
      && r.res.value["Results"] == VList(page1 + page2)
      && r.res.value["OverallStatus"] == VStr("OK")
      && |r.chan.sent| == |sent| + 2
      && r.chan.sent[|sent| + 1] == RetrieveCall(NewRequest(objectType, properties, filter).(continueRequest := Some(VStr(id))))
  {
    var p1: Record := map["Results" := VList(page1), "OverallStatus" := VStr("MoreDataAvailable"), "RequestID" := VStr(id)];
    var p2: Record := map["Results" := VList(page2), "OverallStatus" := VStr("OK")];
    var net := Channel([Response(p1), Response(p2)], sent);
    assert net.replies[..2] == net.replies;
    assert Bodies(net.replies[..2]) == [p1, p2];
    assert [p1, p2][1..] == [p2];
    assert Continues(p1) && !Continues(p2);
    assert DrainChain(p1, [p2]);
    assert PageResults(p1) == Ok(page1) && PageResults(p2) == Ok(page2);
    assert Gather([p2]) == Ok(page2) by {
      assert [p2][0] == p2;
      assert [p2][1..] == [];
      assert Gather([]) == Ok([]);
      assert page2 + [] == page2;
    }
    assert Gather([p1, p2]) == Ok(page1 + page2) by {
      assert [p1, p2][1..] == [p2];
    }
    assert RetrieveChain(net, 2);
    RetrieveDrainsChain(objectType, properties, filter, net);
    var req := NewRequest(objectType, properties, filter);
    var (reply, net1) := Invoke(net, RetrieveCall(req));
    assert net1.replies == [Response(p2)];
    DrainComplete(req, p1, page1, net1, 1);
    assert net1.replies[..1] == [Response(p2)];
    assert Bodies(net1.replies[..1]) == [p2];
  }

  /** A page announcing more data without a `RequestID` ends the drain quietly, with the results gathered so far. */
  lemma MissingRequestIdStopsDrain(page1: seq<Value>, objectType: Value, properties: Value, filter: Value, rest: seq<SoapReply>, sent: seq<SoapCall>)
    ensures var net := Channel([Response(map["Results" := VList(page1), "OverallStatus" := VStr("MoreDataAvailable")])] + rest, sent);
      var r := Retrieve(objectType, properties, filter, true, net);
      && r.res == Ok(Drained(page1))
      && r.chan.replies == rest
      && |r.chan.sent| == |sent| + 1
  {
    var net := Channel([Response(map["Results" := VList(page1), "OverallStatus" := VStr("MoreDataAvailable")])] + rest, sent);
    assert net.replies[1..] == rest;
  }
}

=== FILE: text.dfy ===
/**
 The string operations the client relies on: `sep.join`, `s.split(c)`,
 `re.sub` with a literal pattern, ASCII lower-casing, `lstrip('/')`, and the
 conversions between integers and their decimal text (`str(n)` and `int(s)`).
 */
module Text {
  import opened Base

  /** `sep.join(parts)`. */
  function Join(sep: string, parts: seq<string>): string
  {
    if |parts| == 0 then ""
    else if |parts| == 1 then parts[0]
    else parts[0] + sep + Join(sep, parts[1..])
  }

  /** `s.split(c)` for a one-character separator `c`; never empty. */
  function Split(s: string, c: char): (r: seq<string>)
    ensures |r| >= 1
    decreases |s|
  {
    if |s| == 0 then [""]
    else
      var rest := Split(s[1..], c);
      if s[0] == c then [""] + rest
      else [[s[0]] + rest[0]] + rest[1..]
  }

  lemma {:induction false} SplitWithoutSeparator(a: string, c: char)
    requires c !in a
    ensures Split(a, c) == [a]
    decreases |a|
  {
    if |a| > 0 {
      SplitWithoutSeparator(a[1..], c);
      assert [a[0]] + a[1..] == a;
    }
  }

  lemma {:induction false} SplitAtFirstSeparator(a: string, t: string, c: char)
    requires c !in a
    ensures Split(a + [c] + t, c) == [a] + Split(t, c)
    decreases |a|
  {
    if |a| == 0 {
      assert a + [c] + t == [c] + t;
      assert ([c] + t)[1..] == t;
    } else {
      SplitAtFirstSeparator(a[1..], t, c);
      assert (a + [c] + t)[1..] == a[1..] + [c] + t;
      assert [a[0]] + a[1..] == a;
    }
  }

  /** Splitting a join on its separator gives back the parts, provided no part contains it. */
  lemma {:induction false} SplitJoin(parts: seq<string>, c: char)
    requires |parts| >= 1
    requires forall i :: 0 <= i < |parts| ==> c !in parts[i]
    ensures Split(Join([c], parts), c) == parts
    decreases |parts|
  {
    if |parts| == 1 {
      SplitWithoutSeparator(parts[0], c);
    } else {
      SplitJoin(parts[1..], c);
      SplitAtFirstSeparator(parts[0], Join([c], parts[1..]), c);
      assert [parts[0]] + parts[1..] == parts;
    }
  }

  /** `pat` occurs in `s` at position `i`. */
  predicate OccursAt(pat: string, s: string, i: int)
  {
    0 <= i && i + |pat| <= |s| && s[i..i + |pat|] == pat
  }

  /** Python's `pat in s` for strings. */
  predicate Occurs(pat: string, s: string)
  {
    exists i | 0 <= i <= |s| :: OccursAt(pat, s, i)
  }

  /**
   `re.sub(pat, rep, s)` for a pattern that matches only the literal text `pat`:
   scans left to right and replaces every non-overlapping occurrence.
   */
  function ReplaceAll(s: string, pat: string, rep: string): string
    requires |pat| > 0
    decreases |s|
  {
    if |s| < |pat| then s
    else if s[..|pat|] == pat then rep + ReplaceAll(s[|pat|..], pat, rep)
    else [s[0]] + ReplaceAll(s[1..], pat, rep)
  }

  lemma {:induction false} ReplaceAllWithoutOccurrence(s: string, pat: string, rep: string)
    requires |pat| > 0
    requires !Occurs(pat, s)
    ensures ReplaceAll(s, pat, rep) == s
    decreases |s|
  {
    if |s| >= |pat| {
      assert !OccursAt(pat, s, 0);
      assert s[..|pat|] != pat;
      forall i | 0 <= i <= |s[1..]| ensures !OccursAt(pat, s[1..], i) {
        assert !OccursAt(pat, s, i + 1);
        if i + |pat| <= |s[1..]| {
          assert s[1..][i..i + |pat|] == s[i + 1..i + 1 + |pat|];
        }
      }
      ReplaceAllWithoutOccurrence(s[1..], pat, rep);
      assert [s[0]] + s[1..] == s;
    }
  }

  lemma {:induction false} ReplaceAllBySelf(s: string, pat: string)
    requires |pat| > 0
    ensures ReplaceAll(s, pat, pat) == s
    decreases |s|
  {
    if |s| >= |pat| {
      if s[..|pat|] == pat {
        ReplaceAllBySelf(s[|pat|..], pat);
        assert s[..|pat|] + s[|pat|..] == s;
      } else {
        ReplaceAllBySelf(s[1..], pat);
        assert [s[0]] + s[1..] == s;
      }
    }
  }

  lemma {:induction false} ReplaceAllGrows(s: string, pat: string, rep: string)
    requires |pat| > 0 && |rep| >= |pat|
    ensures |ReplaceAll(s, pat, rep)| >= |s|
    decreases |s|
  {
    if |s| >= |pat| {
      if s[..|pat|] == pat {
        ReplaceAllGrows(s[|pat|..], pat, rep);
      } else {
        ReplaceAllGrows(s[1..], pat, rep);
      }
    }
  }

  lemma {:induction false} ReplaceAllShrinks(s: string, pat: string, rep: string)
    requires |pat| > 0 && |rep| <= |pat|
    ensures |ReplaceAll(s, pat, rep)| <= |s|
    decreases |s|
  {
    if |s| >= |pat| {
      if s[..|pat|] == pat {
        ReplaceAllShrinks(s[|pat|..], pat, rep);
      } else {
        ReplaceAllShrinks(s[1..], pat, rep);
      }
    }
  }

  lemma {:induction false} ReplaceAllChanges(s: string, pat: string, rep: string)
    requires |pat| > 0 && rep != pat
    requires Occurs(pat, s)
    ensures ReplaceAll(s, pat, rep) != s
    decreases |s|
  {
    var i :| 0 <= i <= |s| && OccursAt(pat, s, i);
    assert |s| >= |pat|;
    var r := ReplaceAll(s, pat, rep);
    if s[..|pat|] == pat {
      var tail := ReplaceAll(s[|pat|..], pat, rep);
      assert r == rep + tail;
      if |rep| > |pat| {
        ReplaceAllGrows(s[|pat|..], pat, rep);
        assert |r| > |s|;
      } else if |rep| < |pat| {
        ReplaceAllShrinks(s[|pat|..], pat, rep);
        assert |r| < |s|;
      } else {
        assert r[..|rep|] == rep;
        assert r[..|rep|] != s[..|rep|];
      }
    } else {
      assert s[0..|pat|] == s[..|pat|];
      assert i > 0;
      assert OccursAt(pat, s[1..], i - 1) by {
        assert s[1..][i - 1..i - 1 + |pat|] == s[i..i + |pat|];
      }
      ReplaceAllChanges(s[1..], pat, rep);
      assert r[1..] == ReplaceAll(s[1..], pat, rep);
    }
  }

  /** Substitution leaves a string unchanged exactly when there is nothing to replace or the replacement is the pattern itself. */
  lemma ReplaceAllIdentity(s: string, pat: string, rep: string)
    requires |pat| > 0
    ensures ReplaceAll(s, pat, rep) == s <==> !Occurs(pat, s) || rep == pat
  {
    if !Occurs(pat, s) {
      ReplaceAllWithoutOccurrence(s, pat, rep);
    } else if rep == pat {
      ReplaceAllBySelf(s, pat);
    } else {
      ReplaceAllChanges(s, pat, rep);
    }
  }

  /** `s.lstrip('/')`: drops every leading slash. */
  function LStripSlash(s: string): (r: string)
    ensures |r| <= |s| && r == s[|s| - |r|..]
    ensures forall i :: 0 <= i < |s| - |r| ==> s[i] == '/'
    ensures |r| == 0 || r[0] != '/'
    decreases |s|
  {
    if |s| > 0 && s[0] == '/' then
      var r := LStripSlash(s[1..]);
      assert forall i :: 1 <= i < |s| - |r| ==> s[i] == s[1..][i - 1];
      r
    else s
  }

  /** ASCII `str.lower()`. */
  function Lower(s: string): (r: string)
  {
    seq(|s|, i requires 0 <= i < |s| => if 'A' <= s[i] <= 'Z' then (s[i] as int + 32) as char else s[i])
  }

  // ---------------------------------------------------------------------
  // Integers and their decimal text

  predicate IsDigit(c: char)
  {
    '0' <= c <= '9'
  }

  function DigitChar(d: nat): (c: char)
    requires d < 10
    ensures IsDigit(c) && c as int - '0' as int == d
  {
    ('0' as int + d) as char
  }

  /** Decimal digits of `n`, most significant first, without leading zeros. */
  function NatToString(n: nat): (s: string)
    ensures |s| >= 1
    ensures forall i :: 0 <= i < |s| ==> IsDigit(s[i])
    decreases n
  {
    if n < 10 then [DigitChar(n)] else NatToString(n / 10) + [DigitChar(n % 10)]
  }

  /** `str(n)` for an integer. */
  function IntToString(n: int): string
  {
    if n < 0 then "-" + NatToString(-n) else NatToString(n)
  }

  function DigitValue(c: char): (d: nat)
    requires IsDigit(c)
    ensures d < 10
  {
    c as int - '0' as int
  }

  /** The value of a run of decimal digits. */
  function DigitsValue(s: string): nat
    requires forall i :: 0 <= i < |s| ==> IsDigit(s[i])
    decreases |s|
  {
    if |s| == 0 then 0
    else DigitsValue(s[..|s| - 1]) * 10 + DigitValue(s[|s| - 1])
  }

  predicate AllDigits(s: string)
  {
    |s| > 0 && forall i :: 0 <= i < |s| ==> IsDigit(s[i])
  }

  /**
   `int(s)` for a string: an optional sign followed by one or more ASCII digits.
   None is Python's ValueError.
   */
  function ParseInt(s: string): Option<int>
  {
    if |s| > 0 && (s[0] == '-' || s[0] == '+') then
      var t := s[1..];
      if AllDigits(t) then Some(if s[0] == '-' then 0 - DigitsValue(t) else DigitsValue(t)) else None
    else if AllDigits(s) then Some(DigitsValue(s))
    else None
  }

  lemma {:induction false} DigitsOfNat(n: nat)
    ensures DigitsValue(NatToString(n)) == n
    decreases n
  {
    var s := NatToString(n);
    if n >= 10 {
      DigitsOfNat(n / 10);
      assert s[..|s| - 1] == NatToString(n / 10);
    }
  }

  /** `int(str(n)) == n`. */
  lemma IntStringRoundTrip(n: int)
    ensures ParseInt(IntToString(n)) == Some(n)
  {
    var s := IntToString(n);
    if n < 0 {
      DigitsOfNat(-n);
      assert s[0] == '-';
      assert s[1..] == NatToString(-n);
    } else {
      DigitsOfNat(n);
      assert IsDigit(s[0]);
    }
  }
}

=== FILE: token_manager.dfy ===
/**
 The credential store (`TokenManager` in ET_Client.py): a bearer token and
 the absolute time at which it must be refreshed. The clock is an integer
 number of seconds passed in by the caller; the authentication endpoint is an
 oracle.
 */
module TokenManager {
  import opened Base
  import opened Values
  import opened Net

  /** Lifetime assumed when the token reply carries no `expires_in`. */
  const DefaultExpiresIn := 1200
  /** The token is refreshed this many seconds before it actually expires. */
  const EarlyRefresh := 60

  datatype Credentials = Credentials(clientId: Value, clientSecret: Value, authUrl: string, accountId: Value)

  datatype TokenState = TokenState(token: Value, expiry: int)

  /** What a token call returns, the store afterwards, and the authentication server afterwards. */
  datatype Outcome = Outcome(res: Result<Value>, state: TokenState, net: Http)

  /** The client-credentials request posted to `<authUrl>/v2/token`. */
  function TokenRequest(c: Credentials): Request
  {
    Request(POST, c.authUrl + "/v2/token", Some(VMap(map[
      "grant_type" := VStr("client_credentials"),
      "client_id" := c.clientId,
      "client_secret" := c.clientSecret,
      "account_id" := c.accountId])))
  }

  /** The `expires_in` the reply grants, 1200 when absent; it must be a number to be added to the clock. */
  function Lifetime(body: Record): Result<int>
  {
    match Lookup(body, "expires_in", VInt(DefaultExpiresIn))
    case VInt(n) => Ok(n)
    case VBool(b) => Ok(if b then 1 else 0)
    case _ => Err(TypeError)
  }

  /** The reply carries a usable token: a JSON object with `access_token` and a numeric or absent `expires_in`. */
  predicate Usable(reply: Reply)
  {
    && Succeeded(reply.status)
    && reply.body.Json?
    && reply.body.value.VMap?
    && "access_token" in reply.body.value.fields
    && Lifetime(reply.body.value.fields).Ok?
  }

  /**
   `_refresh_token`: one exchange with the authentication server. The token is
   stored before `expires_in` is read, so a reply whose `expires_in` is not a
   number leaves the new token with the old expiry.
   */
  function Refresh(c: Credentials, s: TokenState, now: int, net: Http): (r: Outcome)
    ensures r.net.sent == net.sent + [TokenRequest(c)]
    ensures |r.net.replies| == if |net.replies| == 0 then 0 else |net.replies| - 1
    ensures r.res.Ok? <==> |net.replies| > 0 && Usable(net.replies[0])
    ensures r.res.Ok? ==>
      var body := net.replies[0].body.value.fields;
      && r.res.value == body["access_token"] == r.state.token
      && r.state.expiry == now + (if "expires_in" in body then Lifetime(body).value else DefaultExpiresIn) - EarlyRefresh
    ensures r.res.Err? ==> r.state.expiry == s.expiry
  {
    var (reply, net1) := Call(net, TokenRequest(c));
    match reply
    case Err(e) => Outcome(Err(e), s, net1)
    case Ok(rep) =>
      match Decode(rep.body)
      case Err(e) => Outcome(Err(e), s, net1)
      case Ok(v) =>
        match Subscript(v, "access_token")
        case Err(e) => Outcome(Err(e), s, net1)
        case Ok(token) =>
          match Lifetime(v.fields)
          case Err(e) => Outcome(Err(e), s.(token := token), net1)
          case Ok(expiresIn) => Outcome(Ok(token), TokenState(token, now + expiresIn - EarlyRefresh), net1)
  }

  /**
   The store as the constructor leaves it: no token, expiry 0, then one
   refresh, which succeeds exactly on a usable reply.
   */
  function Init(c: Credentials, now: int, net: Http): (r: Outcome)
    ensures r.net.sent == net.sent + [TokenRequest(c)]
    ensures r.res.Ok? <==> |net.replies| > 0 && Usable(net.replies[0])
    ensures r.res.Ok? ==>
      var body := net.replies[0].body.value.fields;
      && r.res.value == body["access_token"] == r.state.token
      && r.state.expiry == now + (if "expires_in" in body then Lifetime(body).value else DefaultExpiresIn) - EarlyRefresh
    ensures r.res.Err? ==> r.state.expiry == 0
  {
    Refresh(c, TokenState(VNone, 0), now, net)
  }

  /** `get_token`: refreshes exactly when the clock has reached the expiry, otherwise hands back the cached token. */
  function GetToken(c: Credentials, s: TokenState, now: int, net: Http): (r: Outcome)
    ensures now < s.expiry <==> r.net == net
    ensures now < s.expiry ==> r.res == Ok(s.token) && r.state == s
    ensures now >= s.expiry ==> r.net.sent == net.sent + [TokenRequest(c)]
    ensures now >= s.expiry ==> (r.res.Ok? <==> |net.replies| > 0 && Usable(net.replies[0]))
    ensures now >= s.expiry && r.res.Ok? ==>
      var body := net.replies[0].body.value.fields;
      && r.res.value == body["access_token"] == r.state.token
      && r.state.expiry == now + (if "expires_in" in body then Lifetime(body).value else DefaultExpiresIn) - EarlyRefresh
    ensures now >= s.expiry && r.res.Err? ==> r.state.expiry == s.expiry
  {
    if now >= s.expiry then Refresh(c, s, now, net) else Outcome(Ok(s.token), s, net)
  }

  /** A token obtained at `now` is served from the cache, with no exchange, at every later time before its expiry. */
  lemma FreshTokenReused(c: Credentials, s: TokenState, now: int, net: Http, later: int, net2: Http)
    requires Refresh(c, s, now, net).res.Ok?
    requires now <= later < Refresh(c, s, now, net).state.expiry
    ensures var r := Refresh(c, s, now, net);
      GetToken(c, r.state, later, net2) == Outcome(r.res, r.state, net2)
  {
  }

  /** A lifetime of at most 60 seconds is stale on arrival: the very next call refreshes again. */
  lemma ShortLifetimeRefreshesAgain(c: Credentials, s: TokenState, now: int, net: Http, later: int, net2: Http)
    requires Refresh(c, s, now, net).res.Ok?
    requires Lifetime(net.replies[0].body.value.fields).value <= EarlyRefresh
    requires later >= now
    ensures GetToken(c, Refresh(c, s, now, net).state, later, net2).net.sent == net2.sent + [TokenRequest(c)]
  {
  }

  /** Two calls at the same instant: if the first refreshed to a lifetime above 60 seconds, the second is served from the cache. */
  lemma AtMostOneRefreshPerInstant(c: Credentials, s: TokenState, now: int, net: Http)
    requires GetToken(c, s, now, net).res.Ok?
    requires now >= s.expiry ==> Lifetime(net.replies[0].body.value.fields).value > EarlyRefresh
    ensures var r := GetToken(c, s, now, net);
      GetToken(c, r.state, now, r.net) == r
  {
  }
}

=== FILE: values.dfy ===
/**
 Python values as they appear in SOAP records, REST JSON bodies, catalog
 entries and query parameters, with the handful of Python built-ins the client
 applies to them: truthiness, `str()`, `int()`, iteration, `dict.get`, `d[k]`,
 `in` and hashability.
 */
module Values {
  import opened Base
  import opened Text

  datatype Value =
    | VNone
    | VBool(b: bool)
    | VInt(i: int)
    | VStr(s: string)
    | VList(items: seq<Value>)
    | VMap(fields: map<string, Value>)

  /** A Python dict with string keys: a SOAP record, a JSON object, a catalog entry. */
  type Record = map<string, Value>

  /** Python truthiness (`if v:`). */
  predicate Truthy(v: Value)
  {
    match v
    case VNone => false
    case VBool(b) => b
    case VInt(i) => i != 0
    case VStr(s) => |s| > 0
    case VList(xs) => |xs| > 0
    case VMap(m) => |m| > 0
  }

  /** `r.get(k, default)`. */
  function Lookup(r: Record, k: string, default: Value): Value
  {
    if k in r then r[k] else default
  }

  /** `r[k]`, raising KeyError for a missing key. */
  function Index(r: Record, k: string): Result<Value>
  {
    if k in r then Ok(r[k]) else Err(KeyError(k))
  }

  /** `v[k]` on any value: a dict looks the key up, every other value raises TypeError. */
  function Subscript(v: Value, k: string): Result<Value>
  {
    if v.VMap? then Index(v.fields, k) else Err(TypeError)
  }

  /** `str(v)`; None for a non-empty list or dict, whose text depends on key order and quoting the model does not keep. */
  function Str(v: Value): Option<string>
  {
    match v
    case VNone => Some("None")
    case VBool(b) => Some(if b then "True" else "False")
    case VInt(i) => Some(IntToString(i))
    case VStr(s) => Some(s)
    case VList(xs) => if |xs| == 0 then Some("[]") else None
    case VMap(m) => if |m| == 0 then Some("{}") else None
  }

  /** `str(v)` as a result, an Unmodelled failure where `Str` has no text. */
  function StrOf(v: Value): Result<string>
  {
    match Str(v)
    case Some(s) => Ok(s)
    case None => Err(Unmodelled)
  }

  /** `int(v)`: integers and booleans are themselves, strings are parsed, anything else is a TypeError. */
  function IntOf(v: Value): Result<int>
  {
    match v
    case VInt(i) => Ok(i)
    case VBool(b) => Ok(if b then 1 else 0)
    case VStr(s) => (match ParseInt(s) case Some(n) => Ok(n) case None => Err(ValueError))
    case _ => Err(TypeError)
  }

  /** The elements `for x in v` visits: a list's items, a string's characters, a dict's keys. */
  function Iterate(v: Value): Result<seq<Value>>
  {
    match v
    case VList(xs) => Ok(xs)
    case VStr(s) => Ok(seq(|s|, i requires 0 <= i < |s| => VStr([s[i]])))
    case VMap(m) => if |m| == 0 then Ok([]) else Err(Unmodelled)
    case _ => Err(TypeError)
  }

  /** `k in v` for a string `k`: a dict key, a list element, a substring; anything else raises TypeError. */
  function Contains(v: Value, k: string): Result<bool>
  {
    match v
    case VMap(m) => Ok(k in m)
    case VList(xs) => Ok(VStr(k) in xs)
    case VStr(s) => Ok(Occurs(k, s))
    case _ => Err(TypeError)
  }

  /** Lists and dicts are unhashable: putting them in a set raises TypeError. */
  predicate Hashable(v: Value)
  {
    !v.VList? && !v.VMap?
  }

  /**
   The element a Python set stores for `v`: `True == 1` and `False == 0` with
   equal hashes, so a bool and the matching int are one set element.
   */
  function SetKey(v: Value): Value
  {
    match v
    case VBool(b) => VInt(if b then 1 else 0)
    case _ => v
  }

  /** Two values are one set element exactly when they are equal or a bool meets its int. */
  lemma SetKeySame(u: Value, v: Value)
    ensures SetKey(u) == SetKey(v) <==>
      || u == v
      || (u.VBool? && v == VInt(if u.b then 1 else 0))
      || (v.VBool? && u == VInt(if v.b then 1 else 0))
  {
  }
}
